=== FILE: README.md ===
# JavaScript practice app — grading, catalog and problem list, in Dafny

This project models the logic of a browser practice app. A learner solves
small JavaScript problems, the app grades the code against the problem's test
cases, and the result can be exported as a Markdown review request. Three
parts are modelled, and each has proved properties:

- **The grading core** (`src/lib/testRunner.js`), in modules `JsValues`,
  `DeepEquality`, `Formatting`, `Grading` and `TestRunner`:
  - the structural equality `deepEqual`, over an immutable tagged union of
    JavaScript values;
  - the value renderer `formatValue`;
  - compilation, modelled as an abstract evaluator of the wrapped source text;
  - `runTests`, which runs every case and aggregates the verdicts;
  - `runCustomExecution`, which runs the entry point once on given arguments.
- **The catalog** (`src/problems/index.js`), in modules `Catalog`,
  `Solutions` and `Parentheses`:
  - the generated starter code, with its parameter guard blocks;
  - problems derived from sample inputs;
  - the tag and category option lists;
  - the integer-valued reference solutions, which compute the expected values
    of sample-derived tests.
    Each is stated against what its problem text asks for.
- **The problem-list state of the UI**:
  - `src/App.jsx`, in module `ProblemList`: the filter, the difficulty and
    title orderings, the selection fallback, and the solved set with its
    updates on run and reset;
  - `src/components/ProblemSidebar.jsx`, in module `Sidebar`: the chip lists,
    the filter toggle, the sort selector and the progress counter;
  - `src/components/ExportPanel.jsx`, in module `Export`: the Markdown review
    request.

`Wrappers`, `Text` and `Seqs` hold shared definitions:

- `Option` and `Result`;
- the JavaScript string built-ins the app relies on (`join`, `split`, `trim`,
  `trimEnd`, `includes`, `toLowerCase`, `String(n)`, and the default
  `Array.prototype.sort` order);
- sequence facts.

## Model

| member | source | states |
|---|---|---|
| DeepEquality.DeepEqualPrimitive | src/lib/testRunner.js:21-46 | When either operand is a primitive or a function, `deepEqual` holds exactly when `Object.is` does. Kinds that differ, primitives that differ and distinct functions are all unequal. |
| DeepEquality.EqualReflexive | src/lib/testRunner.js:21-46 | Every value a program can hold equals itself. |
| DeepEquality.DeepEqualArrays | src/lib/testRunner.js:26-32 | Two arrays are equal exactly when they have the same length and are equal position by position. |
| DeepEquality.ArrayExamples | src/lib/testRunner.js:26-32 | Nested equal arrays are equal, and `[1,2]` is not equal to `[2,1]`: order matters. |
| DeepEquality.DeepEqualObjectLike | src/lib/testRunner.js:34-43 | An array against a plain object, or two plain objects: equal exactly when the own-key counts agree and every own key of `a` is an own property of `b` holding an equal value. |
| DeepEquality.KeyOrderIrrelevantLeft | src/lib/testRunner.js:34-43 | Reordering the properties of the left operand does not change the verdict. |
| DeepEquality.KeyOrderIrrelevantRight | src/lib/testRunner.js:34-43 | Reordering the properties of the right operand does not change the verdict. |
| DeepEquality.ObjectOrderExample | src/lib/testRunner.js:34-43 | `{a:1,b:2}` equals `{b:2,a:1}`. |
| DeepEquality.ObjectExtraKeyExample | src/lib/testRunner.js:34-43 | An object with an extra key does not equal one without it. |
| DeepEquality.EmptyArrayEqualsEmptyObject | src/lib/testRunner.js:34-43 | `[]` and `{}` are equal in both orders, because an array and a plain object reach the object branch. |
| DeepEquality.LengthKeyBreaksSymmetry | src/lib/testRunner.js:34-43 | As written, `deepEqual({length:1}, [5])` holds but `deepEqual([5], {length:1})` does not. |
| DeepEquality.KeyedDeepEqualSymmetric | src/lib/testRunner.js:34-43 | With the key check read as "is an enumerable own key", the relation is symmetric on every program value. |
| DeepEquality.DeepEqualAgreesWithoutLengthKey | src/lib/testRunner.js:34-43 | The source's relation and the corrected one agree whenever no plain object in the left operand has a `length` property. |
| DeepEquality.DeepEqualSymmetricWithoutLengthKey | src/lib/testRunner.js:34-43 | The source's relation is symmetric on values without `length`-named properties. |
| Formatting.FormatValue | src/lib/testRunner.js:48-57 | The renderer is total. A string renders quoted, `undefined` as the word, a function as its source text, and anything else as indented JSON, or as `String(v)` when serialisation throws. |
| Formatting.FormatAll | src/lib/testRunner.js:85-89 | The shown arguments are every argument rendered, in order. |
| TestRunner.WrappedSource | src/lib/testRunner.js:3-4 | The evaluated text starts with the strict-mode header. |
| TestRunner.CompileUserCode | src/lib/testRunner.js:3-15 | A solver exactly when evaluation yields a function. Otherwise the failure is the fixed prefix followed by the cause: the thrown message, or the missing-function message naming the entry point. Thrown values are taken to carry a message (see Left out). |
| TestRunner.RunCase | src/lib/testRunner.js:84-117 | Only an array `args` is passed on; anything else means no arguments. A throw from the solver or the custom assert becomes an error item with message and stack (`""` when absent). Otherwise the verdict is `deepEqual` against the expected value, or the truthiness of the assert with its fixed expected texts. Thrown values are taken to carry a message (see Left out). |
| TestRunner.RunEach | src/lib/testRunner.js:84-117 | One item per test in declared order; the item at each position is the case runner applied to the test at that position, and the pass count is the number of passed items. The solver is pure (see Left out). |
| TestRunner.CountPassedAll | src/lib/testRunner.js:107-121 | The pass count reaches the number of items exactly when every item passed. |
| TestRunner.RunTests | src/lib/testRunner.js:63-131 | If compilation fails: a compile-error summary with the compiler's message and no items. Otherwise: one item per test, in order; status `pass` exactly when every item passed; otherwise `fail` with the message "passCount / total". |
| TestRunner.ThrowingSolverErrors | src/lib/testRunner.js:110-114 | A solver that throws gives an `error` item carrying its message, and the item does not pass. |
| TestRunner.ReverseStringPasses | src/problems/index.js:112-120 | The reversing solver passes the `garden` case of `reverseString`. |
| TestRunner.RunCustomExecution | src/lib/testRunner.js:133-162 | Exactly one outcome: a compile error with the message; a success with the value and its rendering; or a runtime error with message and stack. Thrown values are taken to carry a message (see Left out). |
| TestRunner.CustomRunMatchesTestCase | src/lib/testRunner.js:133-162 | Running a case's arguments ad hoc succeeds exactly when the case does not raise. It then shows the same text the case reports as received. |
| Catalog.GuardTemplate | src/problems/index.js:20-39 | Every guard template is four lines: a check, a throw, `  }` and a blank line. |
| Catalog.GuardFor | src/problems/index.js:49-54 | A parameter yields four guard lines when it is listed in `PARAMETER_GUARDS`, and none otherwise. |
| Catalog.GuardLinesLength | src/problems/index.js:49-54 | The guard section has four lines per listed parameter. |
| Catalog.GuardLinesAppend | src/problems/index.js:49-54 | Guard blocks follow parameter order. |
| Catalog.MatchSignatureSpec | src/problems/index.js:43 | The signature pattern matches exactly `name(params)`, with a non-empty `name` free of `(` and `params` free of `)`, and it captures `params`. |
| Catalog.ParamNames | src/problems/index.js:45-48 | Parameter names are non-empty and contain no comma. |
| Catalog.KeepNonEmpty | src/problems/index.js:48 | Exactly the non-empty parts are kept, in order. |
| Catalog.StarterShape | src/problems/index.js:41-65 | The starter text is `function <signature> {`, then each guard line, then `// TODO: <comment>`, a blank line, `}` and a trailing newline. |
| Catalog.StarterWithoutParameters | src/problems/index.js:43-54 | A signature without the `name(params)` shape gets no guards. |
| TestRunner.ReferenceSolutionPasses | src/problems/index.js:82-89 | Submitting a problem's reference solution passes every case generated from its samples. |
| Catalog.CreateProblem | src/problems/index.js:78-99 | With samples: one test per sample, in order. Each keeps its arguments, its description defaults to `ケース n`, and its expected value comes from the reference solution when there is one. Without samples: the written tests. The category is always set. The prompt is the joined `promptLines` when given, and the starter code is generated when a signature is given. |
| Catalog.CreateProblems | src/problems/index.js:101-103 | One problem per definition, in order: each entry is `createProblem` of its definition with the group's category. |
| Catalog.CollectTags | src/problems/index.js:3174-3181 | A strictly sorted list holding exactly the tags some problem carries. |
| Catalog.GetTagOptions | src/problems/index.js:3174-3183 | `All`, then every tag of every problem once, in increasing order. |
| Catalog.GetCategoryOptions | src/problems/index.js:3185-3190 | `All`, then the subsequence of `CATEGORY_ORDER` holding the categories some problem has. |
| Solutions.ChunkArray | src/problems/index.js:1005-1011 | The chunks concatenate to the input (so the empty input gives none, for any size). Every chunk is non-empty, and only the last may be shorter than `size`. |
| Solutions.RotationOffset | src/problems/index.js:1065 | `((k % n) + n) % n`, with JavaScript's `%`, is the mathematical residue of `k` modulo `n`. |
| Solutions.RotateLeft | src/problems/index.js:1062-1067 | Same length, and `r[i] == values[(i + k) mod n]`. |
| Solutions.RotateRight | src/problems/index.js:1087-1094 | Same length, and `r[i] == values[(i - k) mod n]`. |
| Solutions.RotateInverse | src/problems/index.js:1062-1094 | Rotating right by `k` undoes rotating left by `k`, and the converse. |
| Solutions.ZipArrays | src/problems/index.js:1115-1122 | Pairs of same-index elements, as many as the shorter input has. |
| Solutions.ZipUnzip | src/problems/index.js:1115-1122 | Unzipping gives back the common-length prefixes of both inputs. |
| Solutions.InterleaveArrays | src/problems/index.js:1143-1151 | Alternating elements while both inputs last, then the rest of the longer one. |
| Solutions.SplitAt | src/problems/index.js:1227-1231 | The two parts concatenate to the input, and the first part's length is the index clamped to `[0, length]`. |
| Solutions.UniqueArray | src/problems/index.js:1031-1041 | Duplicate-free, with exactly the input's values, ordered by first occurrence. |
| Solutions.SlideWindow | src/problems/index.js:1255-1260 | One step of the running sum: the new value enters, and once the window is full the oldest one leaves. |
| Solutions.WindowSums | src/problems/index.js:1252-1266 | Nothing for a size out of range. Otherwise the sums of every `size` consecutive values, left to right. |
| Solutions.MergeSortedArrays | src/problems/index.js:2741-2757 | The result is a rearrangement of `a ++ b`. |
| Solutions.MergeSortedArraysAscending | src/problems/index.js:2741-2757 | Two ascending inputs merge into an ascending result. |
| Solutions.BinarySearch | src/problems/index.js:2515-2529 | Returns a position holding the target, or -1. On an ascending array, -1 exactly when the target is absent. |
| Solutions.NonZeroSubsequence | src/problems/index.js:2650 | The kept values appear in the input in the same order. |
| Solutions.NonZeroMultiset | src/problems/index.js:2650-2652 | Filtering removes exactly the zeros it counts and nothing else. |
| Solutions.MoveZeroes | src/problems/index.js:2649-2653 | A rearrangement of the input: the non-zero values in their order, then only zeros. |
| Solutions.Gcd | src/problems/index.js:1490-1499 | The greatest common divisor of the absolute values, with `gcd(0, 0) == 0`. |
| Solutions.Fibonacci | src/problems/index.js:1554-1565 | `F(n)` from `F(0) = 0`; a negative argument returns 1. |
| Parentheses.IsValidParentheses | src/problems/index.js:2778-2791 | The loop accepts exactly when the stack scan ends on an empty stack. |
| Parentheses.BalancedScan | src/problems/index.js:2778-2791 | A well-nested text leaves any stack as it found it. |
| Parentheses.AcceptedIsBalanced | src/problems/index.js:2778-2791 | Bracket-only text that the checker accepts is well nested. |
| Parentheses.ValidIffBalanced | src/problems/index.js:2778-2791 | On text made only of bracket characters, the checker accepts exactly the well-nested texts. |
| Parentheses.OtherCharacters | src/problems/index.js:2785 | Any character that is neither an opener nor a closer is skipped when the stack is empty, whatever follows it, and makes the scan fail when the stack is non-empty. |
| Parentheses.OtherCharacterExamples | src/problems/index.js:2785 | `a` and `a()` are accepted and `(a)` is rejected. |
| ProblemList.FilterProblems | src/App.jsx:128-137 | Exactly the problems that meet all four conditions, in catalog order. |
| ProblemList.KeepAllMatching | src/App.jsx:128-137 | A filter every problem matches keeps the list as it is. |
| ProblemList.InitialFiltersKeepAll | src/App.jsx:79 | The initial filters list the whole catalog. |
| ProblemList.CatalogIndex | src/App.jsx:72-78 | An id's order is its last catalog position, and 0 when the id is unknown. |
| ProblemList.CatalogIndexOfMember | src/App.jsx:72-78 | With distinct ids, a problem's order is its catalog position. |
| ProblemList.InsertByKey | src/App.jsx:143-168 | Insertion keeps the list ordered by key and adds exactly one element. |
| ProblemList.SortByKey | src/App.jsx:143-168 | A rearrangement ordered by key. |
| ProblemList.SortProblems | src/App.jsx:139-170 | `default` or an unknown mode gives the filtered list unchanged. The other four modes give a rearrangement ordered by the mode's key, with catalog position as tie-break. |
| ProblemList.DifficultyOrderStrict | src/App.jsx:144-155 | Under both difficulty orderings, difficulty follows the mode's direction, and equal difficulties stand in catalog order. |
| ProblemList.FallbackSelection | src/App.jsx:172-180 | A missing selection is left alone, and a listed one is kept. Otherwise the first listed problem is selected, or nothing when the list is empty. |
| ProblemList.FallbackSelectionIdempotent | src/App.jsx:172-180 | Running the effect again changes nothing. |
| ProblemList.SolvedIds | src/App.jsx:185-195 | An id is solved exactly when its recorded outcome passed, or when it has none and was persisted. |
| ProblemList.Run | src/App.jsx:234-242 | Records the outcome. The id is persisted exactly when the run passed, and other ids are unchanged. |
| ProblemList.Reset | src/App.jsx:220-225 | Records `null` and drops only this id. The set is unchanged when the id was absent. |
| ProblemList.RunDecidesSolved | src/App.jsx:228-244 | After a run, the problem is solved exactly when the run passed, and no other problem changes. |
| ProblemList.ResetUnsolves | src/App.jsx:215-226 | After a reset, the problem is unsolved, and no other problem changes. |
| Sidebar.Chips | src/components/ProblemSidebar.jsx:58-66 | One chip per option, in order. `All` is labelled `すべて`, and every other label is its value. |
| Sidebar.ActiveChips | src/components/ProblemSidebar.jsx:33 | Exactly the chips whose value is the current value are active. |
| Sidebar.AtMostOneActive | src/components/ProblemSidebar.jsx:33 | Options without repeats light at most one chip. |
| Sidebar.DifficultyChipsCoverDifficulties | src/components/ProblemSidebar.jsx:3-8 | `All`, then one chip per difficulty, with no repeats. |
| Sidebar.SortChipsAreModes | src/components/ProblemSidebar.jsx:10-16 | The initial mode, then the four orderings, with no repeats. |
| Sidebar.HandleFilterChange | src/components/ProblemSidebar.jsx:72-79 | Nothing is emitted only for `All` on an `All` field. The active chip clears its field to `All`, and another chip selects itself. Only that field changes. |
| Sidebar.ToggleTwice | src/components/ProblemSidebar.jsx:72-79 | Clicking the same chip twice from `All` selects it and then restores the filters. |
| Sidebar.HandleSortChange | src/components/ProblemSidebar.jsx:81-84 | Nothing for the current mode; otherwise only `sort` changes. |
| Sidebar.HandleQueryChange | src/components/ProblemSidebar.jsx:68-70 | Only the query changes. |
| Sidebar.SolvedCount | src/components/ProblemSidebar.jsx:54-55 | The size of a given set; for an array, the number of its distinct entries, which is at most its length and positive when it is non-empty; 0 otherwise. |
| Sidebar.SolvedArrayCount | src/components/ProblemSidebar.jsx:54-55 | A duplicate-free array counts every entry. |
| Sidebar.Total | src/components/ProblemSidebar.jsx:56 | `totalCount` when it is a number, otherwise the number of problems. |
| Export.TranslateOutcome | src/components/ExportPanel.jsx:3-8 | The three outcomes get their fixed labels, other non-empty text passes through, and the empty text becomes `unknown`. |
| Export.TranslatedItemOutcomesDiffer | src/components/ExportPanel.jsx:3-8 | The labels of two items are equal exactly when their outcomes are. |
| Export.OverviewLines | src/components/ExportPanel.jsx:19-46 | The id, title and difficulty lines come first. The category line and the tag line (tags joined by `, `) appear only when present, followed by a blank line. The trimmed summary, the trimmed prompt and the constraint bullets each appear only when non-empty, at their positions under their headings and closed by a blank line. |
| Export.CodeLines | src/components/ExportPanel.jsx:48-52 | A fenced block holding the code, or the placeholder comment for empty code. |
| Export.InputLines | src/components/ExportPanel.jsx:71-73 | The input line appears only when there are arguments. |
| Export.DetailLines | src/components/ExportPanel.jsx:74-84 | For an error: the error line, then the stack between two fence lines when the stack is non-empty. Otherwise the expected line and the received line, in that order. |
| Export.ItemLines | src/components/ExportPanel.jsx:69-85 | A case section: a heading numbered from 1, the translated outcome, the comma-joined input when there are arguments, the error or expected/received lines, and a blank line. |
| Export.StackFenceIffStack | src/components/ExportPanel.jsx:74-80 | A fence appears in a case section exactly when the item is an error with a non-empty stack. |
| Export.RunHead | src/components/ExportPanel.jsx:60-67 | Status, message, the duration only when it is a number, then a blank line and the details heading as the last two lines. |
| Export.ResultLines | src/components/ExportPanel.jsx:54-87 | One "not yet run" line without a result. Only status and message after a compile error. Otherwise the run's head and the case sections. |
| Export.ItemHeadings | src/components/ExportPanel.jsx:69-85 | A case section holds exactly its own heading. |
| Export.CaseHeadings | src/components/ExportPanel.jsx:68-86 | The case details hold one heading per item, numbered from 1 in item order. |
| Export.ResultHeadings | src/components/ExportPanel.jsx:54-87 | After a run that compiled, the result section holds one numbered heading per item; otherwise it holds none. |
| Export.BuildMarkdown | src/components/ExportPanel.jsx:10-96 | The empty text without a problem; otherwise text that does not end in whitespace. |
| Export.TrimRemovesOnlyClosingLine | src/components/ExportPanel.jsx:89-95 | The trailing trim removes only the newline before the closing empty line. The document is the join of all other lines and ends with the template's last line. |
| Text.SplitJoin | src/problems/index.js:46 | Splitting on a character and re-joining with it gives the text back. |
| Text.TrimEnd | src/components/ExportPanel.jsx:95 | The longest prefix that does not end in whitespace; everything removed is whitespace. |
| Text.Trim | src/App.jsx:129 | A slice of the input that neither starts nor ends with whitespace, with only whitespace outside it. |
| Text.Lower | src/App.jsx:129-131 | Same length, with each letter lower-cased. |
| Text.DecimalRoundTrip | src/problems/index.js:85 | Reading back the rendered digits gives the number. |
| Text.LessTotal | src/problems/index.js:3181 | The default sort order is total on distinct strings. |
| Text.LessTransitive | src/problems/index.js:3181 | The default sort order is transitive. |

## Left out

- Compilation: `new Function` in `compileUserCode` is host dynamic
  compilation. It is the abstract `evaluate` parameter. The model still fixes
  the wrapped text it is given and the messages built from its answer.
- Timing: `performance.now()` and the `toFixed(2)` rounding of `durationMs`
  are a clock and floating point. The duration is a caller-supplied text.
- `JSON.stringify`, a function's source text and `String(v)` are the `Host`
  parameters of `Formatting.FormatValue`. Only the dispatch around them is
  modelled.
- `clone` (src/problems/index.js:71-76) is the identity here. In the source
  it is a JSON round-trip of every object argument: it drops functions and
  `undefined` properties, turns `undefined` array entries into `null`, and
  loses prototypes. The model applies the reference solution to the sample
  arguments themselves, so its expected values are those of a lossless copy.
- Title sorts: `localeCompare(..., 'ja')` is a host collation. It is the
  `titleRank` parameter, so `ProblemList.SortProblems` states the title
  orderings only relative to that ranking.
- Text.Lower: changes only ASCII letters. Unicode case mapping is not
  modelled.
- Browser I/O: localStorage persistence, hash and history routing, and
  clipboard access. `ProblemList.SolvedIds` takes the persisted set as a
  parameter.
- `ProblemList.SolvedIds` visits the entries in an arbitrary order, not
  `Object.entries` order. The result does not depend on the order.
- Numbers: JavaScript numbers are integers here, so `Object.is` cases that
  exist only for NaN and signed zeros are absent.
- Reference solutions that depend on floating point, 32-bit bitwise
  semantics, mixed-type comparison or host built-ins are not modelled. The
  other reference solutions in `src/problems/index.js` are not part of this
  model either.
- Solutions.ChunkArray: requires `size >= 1` unless the array is empty. For
  an empty array the source returns `[]` whatever the size, and so does the
  model. For a non-empty array and a size below 1 the source's loop never
  ends, and the problem text rules that size out.
- Solutions.MergeSortedArrays: taking from `a` on ties is what the body does.
  It cannot be told apart on integers, so no contract states it.
- Export.CaseHeadings: the heading count excludes stack texts that themselves
  start with `#### `. Such a stack would add lines that look like headings.
- Export.ItemHeadings: the same exclusion of stack texts starting with
  `#### `, for a single case section.
- Export.ResultHeadings: the same exclusion of stack texts starting with
  `#### `, for the whole result section.
- Export.BuildMarkdown: its own contract states only the empty case and the
  trimmed end. The section layout is stated by
  `Export.OverviewLines`, `Export.ResultLines`, `Export.ItemLines` and
  `Export.TrimRemovesOnlyClosingLine`.
- TestRunner.CompileUserCode: thrown values are assumed to be objects with a
  string `message`. In the source, `throw null` or `throw undefined` makes
  the `catch` block's own `error.message` read throw a `TypeError`. That
  error escapes `compileUserCode` unprefixed, and `runTests` reports the
  host's `TypeError` text. A thrown primitive has an `undefined` message.
  Neither case is modelled.
- TestRunner.RunCase: the same assumption. A `throw null` or
  `throw undefined` from the solver or from a custom `assert` makes the
  `catch` block throw, which aborts the whole `runTests` call instead of
  producing an error item. That outcome is not modelled.
- TestRunner.RunCustomExecution: the same assumption. A `throw null` or
  `throw undefined` at runtime escapes `runCustomExecution` instead of
  producing a runtime-error outcome. That outcome is not modelled.
- TestRunner.RunEach: the solver is a pure function of its arguments, so
  cases are independent. In the source, the code is compiled once per run
  (src/lib/testRunner.js:69), so top-level state of the learner's code
  carries over from case to case. Also, `solver.apply(null, rawArgs)`
  passes `test.args`, which is the uncloned `sample.args` object
  (src/problems/index.js:86). A solver that mutates its arguments therefore
  changes the arguments seen by later runs. Neither effect is modelled.
- Text.Less: orders strings by code point. The source's `.sort()` compares
  UTF-16 code units, and the two orders differ for characters above U+FFFF.
- Solutions.Fibonacci: computes exact integers. JavaScript numbers lose
  precision from `F(79)` on, so the source's results differ there.
- Rendering components (`ResultPanel.jsx`, `ProblemDetail.jsx`,
  `EditorPanel.jsx`) have no logic worth stating. `CustomRunPanel.jsx` only
  parses JSON before calling `runCustomExecution`.
- DeepEquality.DeepEqualSymmetricWithoutLengthKey: symmetry is proved for
  operands without `length`-named properties. Some pairs that have such
  properties are still symmetric, for example two objects `{length: 1}`.
  The Findings row gives a pair where symmetry fails.
- Catalog.Starter: the comment is a string. In the source, a definition with
  a signature but no comment renders `  // TODO: undefined`. Every catalog
  definition with a signature has a comment, so no entry is affected.
- Parentheses.IsValidParentheses: on text with characters other than
  brackets, the checker is not a nesting test (see
  `Parentheses.OtherCharacters`). The equivalence with well-nesting is proved
  for bracket-only text.

## Findings

| source | as written | input that shows it | evidently intended | confidence | as-written member | corrected member |
|---|---|---|---|---|---|---|
| src/lib/testRunner.js:34-43 | The object branch asks `hasOwnProperty` whether `b` has each key of `a`. An array owns a non-enumerable `length`, which `Object.keys` does not list, so the key-count check and the key test disagree. | `deepEqual({length: 1}, [5])` is true, while `deepEqual([5], {length: 1})` is false | Key presence means "is one of `Object.keys(b)`", which makes the relation symmetric | not executed | DeepEquality.LengthKeyBreaksSymmetry | DeepEquality.KeyedDeepEqualSymmetric |

The grading path keeps the as-written relation, `DeepEquality.DeepEqual`,
because that is what decides a learner's verdict.
`DeepEquality.DeepEqualAgreesWithoutLengthKey` shows that the two relations
coincide unless the left operand has a `length`-named property.

=== FILE: catalog.dfy ===
/** Catalog construction (src/problems/index.js): the starter code shown in
    the editor, problems derived from sample inputs and a reference solution,
    and the tag and category option lists of the problem filter. */
module Catalog {
  import opened Wrappers
  import opened Text
  import opened Seqs
  import opened JsValues
  import opened Grading

  // ---------------------------------------------------------------------
  // Parameter guards

  datatype GuardKind = StringGuard | ArrayGuard | ObjectGuard

  /** `PARAMETER_GUARDS`: the parameter names that receive a type check. */
  const ParameterGuards: map<string, GuardKind> := map[
    "input" := StringGuard, "text" := StringGuard, "path" := StringGuard,
    "words" := ArrayGuard, "values" := ArrayGuard, "items" := ArrayGuard,
    "pairs" := ArrayGuard, "intervals" := ArrayGuard, "matrix" := ArrayGuard,
    "source" := ArrayGuard, "other" := ArrayGuard, "keys" := ArrayGuard,
    "mapping" := ObjectGuard, "object" := ObjectGuard, "settings" := ObjectGuard,
    "defaults" := ObjectGuard]

  /** `GUARD_TEMPLATES[kind](name)`: a check, a throw, a closing brace and a
      blank line. */
  function GuardTemplate(kind: GuardKind, name: string): (lines: seq<string>)
    ensures |lines| == 4 && lines[2] == "  }" && lines[3] == ""
  {
    match kind
    case StringGuard => [
      "  if (typeof " + name + " !== 'string') {",
      "    throw new TypeError('" + name + " は文字列で受け取ってください');",
      "  }",
      ""]
    case ArrayGuard => [
      "  if (!Array.isArray(" + name + ")) {",
      "    throw new TypeError('" + name + " は配列で受け取ってください');",
      "  }",
      ""]
    case ObjectGuard => [
      "  if (" + name + " === null || typeof " + name + " !== 'object') {",
      "    throw new TypeError('" + name + " はオブジェクトで受け取ってください');",
      "  }",
      ""]
  }

  /** The guard block of one parameter: empty unless the name is listed. */
  function GuardFor(param: string): (lines: seq<string>)
    ensures |lines| == if param in ParameterGuards then 4 else 0
  {
    if param in ParameterGuards then GuardTemplate(ParameterGuards[param], param) else []
  }

  /** The guard blocks of all parameters, in parameter order. */
  function GuardLines(params: seq<string>): seq<string>
    decreases |params|
  {
    if |params| == 0 then [] else GuardFor(params[0]) + GuardLines(params[1..])
  }

  function CountGuarded(params: seq<string>): nat
    decreases |params|
  {
    if |params| == 0 then 0
    else (if params[0] in ParameterGuards then 1 else 0) + CountGuarded(params[1..])
  }

  /** One four-line block per listed parameter and nothing for the others. */
  lemma {:induction false} GuardLinesLength(ps: seq<string>)
    ensures |GuardLines(ps)| == 4 * CountGuarded(ps)
    decreases |ps|
  {
    if |ps| > 0 {
      GuardLinesLength(ps[1..]);
    }
  }

  /** The blocks of a longer parameter list extend those of its prefix. */
  lemma {:induction false} GuardLinesAppend(ps: seq<string>, qs: seq<string>)
    ensures GuardLines(ps + qs) == GuardLines(ps) + GuardLines(qs)
    decreases |ps|
  {
    if |ps| == 0 {
      assert ps + qs == qs;
    } else {
      assert (ps + qs)[0] == ps[0];
      assert (ps + qs)[1..] == ps[1..] + qs;
      GuardLinesAppend(ps[1..], qs);
    }
  }

  // ---------------------------------------------------------------------
  // Signature parsing

  /** The position of the first `c` in `s`. */
  function FirstIndex(s: string, c: char): (r: Option<nat>)
    ensures r.Some? ==> r.value < |s| && s[r.value] == c && c !in s[..r.value]
    ensures r.None? ==> c !in s
    decreases |s|
  {
    if |s| == 0 then None
    else if s[0] == c then Some(0)
    else match FirstIndex(s[1..], c)
      case None => None
      case Some(i) =>
        assert s[..i + 1] == [s[0]] + s[1..][..i];
        Some(i + 1)
  }

  /** The parameter text captured by `/^[^(]+\(([^)]*)\)$/`: at least one
      character before the first `(`, then a final `)` with no other `)` after
      that `(`. */
  function MatchSignature(sig: string): Option<string> {
    match FirstIndex(sig, '(')
    case None => None
    case Some(p) =>
      if p >= 1 && |sig| >= p + 2 && sig[|sig| - 1] == ')' && ')' !in sig[p + 1..|sig| - 1]
      then Some(sig[p + 1..|sig| - 1])
      else None
  }

  /** `sig` is `name(params)` with a `name` of `k` characters free of `(`
      and `params` free of `)`. */
  predicate SignatureShape(sig: string, k: int, params: string) {
    1 <= k < |sig| && '(' !in sig[..k] && sig == sig[..k] + "(" + params + ")" && ')' !in params
  }

  /** The signature pattern matches exactly the texts `name(params)` with a
      non-empty `name` free of `(` and `params` free of `)`, and captures
      `params`. */
  lemma MatchSignatureSpec(sig: string, params: string)
    ensures MatchSignature(sig) == Some(params) <==> exists k :: SignatureShape(sig, k, params)
  {
    if MatchSignature(sig) == Some(params) {
      MatchSignatureSound(sig, params);
    }
    if exists k :: SignatureShape(sig, k, params) {
      var k :| SignatureShape(sig, k, params);
      MatchSignatureComplete(sig, k, params);
    }
  }

  lemma MatchSignatureSound(sig: string, params: string)
    requires MatchSignature(sig) == Some(params)
    ensures SignatureShape(sig, FirstIndex(sig, '(').value, params)
  {
    var p := FirstIndex(sig, '(').value;
    var n := |sig|;
    assert sig == sig[..p] + [sig[p]] + sig[p + 1..n - 1] + [sig[n - 1]];
  }

  lemma MatchSignatureComplete(sig: string, k: int, params: string)
    requires SignatureShape(sig, k, params)
    ensures MatchSignature(sig) == Some(params)
  {
    var n := |sig|;
    assert n == k + |params| + 2;
    assert sig[k] == '(' && sig[n - 1] == ')';
    FirstIndexAt(sig, '(', k);
    assert sig[k + 1..n - 1] == params;
  }

  /** The first occurrence is the one with no earlier occurrence. */
  lemma {:induction false} FirstIndexAt(s: string, c: char, k: nat)
    requires k < |s| && s[k] == c && c !in s[..k]
    ensures FirstIndex(s, c) == Some(k)
    decreases k
  {
    if k > 0 {
      assert s[0] == s[..k][0];
      assert s[1..][..k - 1] == s[1..k];
      assert forall x :: x in s[1..k] ==> x in s[..k];
      FirstIndexAt(s[1..], c, k - 1);
    }
  }

  /** The parameter names: split on commas, trimmed, empty ones dropped. */
  function ParamNames(paramText: string): (names: seq<string>)
    ensures forall i :: 0 <= i < |names| ==> |names[i]| > 0 && ',' !in names[i]
  {
    KeepNonEmpty(TrimAll(Split(paramText, ',')))
  }

  function TrimAll(parts: seq<string>): (r: seq<string>)
    requires forall i :: 0 <= i < |parts| ==> ',' !in parts[i]
    ensures |r| == |parts|
    ensures forall i :: 0 <= i < |parts| ==> r[i] == Trim(parts[i]) && ',' !in r[i]
  {
    seq(|parts|, i requires 0 <= i < |parts| => TrimSub(parts[i]))
  }

  function TrimSub(s: string): (r: string)
    requires ',' !in s
    ensures r == Trim(s) && ',' !in r
  {
    var r := Trim(s);
    var i, j :| 0 <= i <= j <= |s| && r == s[i..j];
    assert forall c :: c in r ==> c in s;
    r
  }

  function KeepNonEmpty(parts: seq<string>): (r: seq<string>)
    ensures forall i :: 0 <= i < |r| ==> |r[i]| > 0 && r[i] in parts
    ensures forall s :: s in parts && |s| > 0 ==> s in r
    ensures IsSubsequence(r, parts)
    decreases |parts|
  {
    if |parts| == 0 then []
    else if |parts[0]| > 0 then [parts[0]] + KeepNonEmpty(parts[1..])
    else KeepNonEmpty(parts[1..])
  }

  // ---------------------------------------------------------------------
  // Starter code

  function StarterHeader(signature: string): string {
    "function " + signature + " {"
  }

  function TodoLine(comment: string): string {
    "  // TODO: " + comment
  }

  /** The guard lines of a signature: the blocks of its listed parameters
      when it has the shape `name(params)`, none otherwise. */
  function StarterGuards(signature: string): seq<string> {
    match MatchSignature(signature)
    case Some(paramText) => GuardLines(ParamNames(paramText))
    case None => []
  }

  /** The lines of `starter(signature, comment)`. */
  function StarterLines(signature: string, comment: string): seq<string> {
    [StarterHeader(signature)] + StarterGuards(signature) + [TodoLine(comment), "", "}", ""]
  }

  function Starter(signature: string, comment: string): string {
    Join(StarterLines(signature, comment), "\n")
  }

  /** The starter text is `function <signature> {` on its own line, then each
      guard line ended by a newline, then the TODO comment, a blank line, `}`
      and a final newline. */
  lemma StarterShape(signature: string, comment: string)
    ensures Starter(signature, comment) ==
              StarterHeader(signature) + "\n" + Terminated(StarterGuards(signature), "\n") +
              TodoLine(comment) + "\n\n}\n"
  {
    var header, guards, todo := StarterHeader(signature), StarterGuards(signature), TodoLine(comment);
    var closing := [todo, "", "}", ""];
    var head := [header] + guards;
    assert StarterLines(signature, comment) == head + closing;
    JoinAfter(head, closing, "\n");
    assert head[0] == header && head[1..] == guards;
    var terminated := Terminated(guards, "\n");
    assert Terminated(head, "\n") == header + "\n" + terminated;
    ClosingText(todo);
    var tail := todo + "\n\n}\n";
    assert (header + "\n" + terminated) + tail == header + "\n" + terminated + todo + "\n\n}\n";
  }

  lemma ClosingText(todo: string)
    ensures Join([todo, "", "}", ""], "\n") == todo + "\n\n}\n"
  {
    var closing := [todo, "", "}", ""];
    assert closing[1..] == ["", "}", ""];
    assert Join(["}", ""], "\n") == "}\n" by {
      assert ["}", ""][1..] == [""];
    }
    assert Join(["", "}", ""], "\n") == "\n}\n" by {
      assert ["", "}", ""][1..] == ["}", ""];
    }
  }

  /** A signature without the `name(params)` shape gets no guards at all. */
  lemma StarterWithoutParameters(signature: string, comment: string)
    requires MatchSignature(signature).None?
    ensures Starter(signature, comment) == StarterHeader(signature) + "\n" + TodoLine(comment) + "\n\n}\n"
  {
    StarterShape(signature, comment);
  }

  // ---------------------------------------------------------------------
  // Problems from definitions

  /** A sample input; an empty description stands for a missing one, and a
      missing expected value is `undefined`. */
  datatype Sample = Sample(description: string, args: seq<Value>, expected: Value)

  /** A problem as written in the catalog source. Empty text fields stand for
      absent (or falsy) ones. */
  datatype Definition = Definition(
    id: string,
    title: string,
    summary: string,
    difficulty: Difficulty,
    tags: seq<string>,
    functionName: string,
    constraints: seq<string>,
    prompt: string,
    promptLines: Option<seq<string>>,
    signature: string,
    comment: string,
    starterCode: string,
    samples: Option<seq<Sample>>,
    solution: Option<seq<Value> -> Value>,
    tests: seq<TestCase>)

  function SampleDescription(sample: Sample, index: nat): string {
    if |sample.description| > 0 then sample.description else "ケース " + Decimal(index + 1)
  }

  /** The test derived from the `index`-th sample. */
  function SampleTest(def: Definition, sample: Sample, index: nat): TestCase {
    var expected := match def.solution
      case Some(solve) => solve(sample.args)
      case None => sample.expected;
    TestCase(SampleDescription(sample, index), Arr(sample.args), Expect(expected))
  }

  /** `createProblem`: with samples, one test per sample in sample order,
      keeping the arguments, defaulting the description to `ケース n`
      (numbered from 1) and taking the expected value from the reference
      solution when there is one; without samples, the written tests. The
      category is always set; the prompt and starter code are generated when
      their sources are present. */
  function CreateProblem(category: string, def: Definition): (p: Problem)
    ensures p.category == category
    ensures p.id == def.id && p.functionName == def.functionName && p.tags == def.tags
    ensures def.samples.None? ==> p.tests == def.tests
    ensures def.samples.Some? ==>
              && |p.tests| == |def.samples.value|
              && forall i :: 0 <= i < |p.tests| ==>
                   var s := def.samples.value[i];
                   && p.tests[i].args == Arr(s.args)
                   && p.tests[i].check.Expect?
                   && p.tests[i].check.expected == (if def.solution.Some? then def.solution.value(s.args) else s.expected)
                   && p.tests[i].description == (if |s.description| > 0 then s.description else "ケース " + Decimal(i + 1))
    ensures def.promptLines.Some? ==> p.prompt == Join(def.promptLines.value, "\n")
    ensures def.promptLines.None? ==> p.prompt == def.prompt
    ensures |def.signature| > 0 ==> p.starterCode == Starter(def.signature, def.comment)
    ensures |def.signature| == 0 ==> p.starterCode == def.starterCode
  {
    var tests := match def.samples
      case Some(samples) =>
        seq(|samples|, i requires 0 <= i < |samples| => SampleTest(def, samples[i], i))
      case None => def.tests;
    var prompt := match def.promptLines
      case Some(lines) => Join(lines, "\n")
      case None => def.prompt;
    var starterCode := if |def.signature| > 0 then Starter(def.signature, def.comment) else def.starterCode;
    Problem(def.id, def.title, def.summary, def.difficulty, def.tags, def.functionName,
            category, prompt, starterCode, def.constraints, tests)
  }

  /** `createProblems`: every definition of a group, in order, with the
      group's category. */
  function CreateProblems(category: string, defs: seq<Definition>): (ps: seq<Problem>)
    ensures |ps| == |defs|
    ensures forall i :: 0 <= i < |defs| ==> ps[i].category == category && ps[i].id == defs[i].id
    ensures forall i :: 0 <= i < |defs| ==> ps[i] == CreateProblem(category, defs[i])
  {
    seq(|defs|, i requires 0 <= i < |defs| => CreateProblem(category, defs[i]))
  }

  // ---------------------------------------------------------------------
  // Filter options

  predicate StrictlySorted(xs: seq<string>) {
    forall i, j :: 0 <= i < j < |xs| ==> Less(xs[i], xs[j])
  }

  /** Insertion into a strictly sorted list, ignoring a value already there. */
  function Insert(xs: seq<string>, t: string): (r: seq<string>)
    requires StrictlySorted(xs)
    ensures StrictlySorted(r)
    ensures forall s :: s in r <==> s in xs || s == t
    decreases |xs|
  {
    if |xs| == 0 then [t]
    else if t == xs[0] then xs
    else if Less(t, xs[0]) then
      assert forall j :: 0 <= j < |xs| ==> Less(t, xs[j]) by {
        forall j | 0 <= j < |xs| ensures Less(t, xs[j]) {
          if j > 0 { LessTransitive(t, xs[0], xs[j]); }
        }
      }
      [t] + xs
    else
      LessTotal(t, xs[0]);
      var rest := Insert(xs[1..], t);
      assert forall s :: s in rest ==> Less(xs[0], s) by {
        forall s | s in rest ensures Less(xs[0], s) {
          if s != t {
            var j :| 0 <= j < |xs[1..]| && xs[1..][j] == s;
            assert xs[j + 1] == s;
          }
        }
      }
      assert forall j :: 0 < j < |[xs[0]] + rest| ==> ([xs[0]] + rest)[j] in rest;
      assert xs == [xs[0]] + xs[1..];
      [xs[0]] + rest
  }

  function InsertAll(xs: seq<string>, ts: seq<string>): (r: seq<string>)
    requires StrictlySorted(xs)
    ensures StrictlySorted(r)
    ensures forall s :: s in r <==> s in xs || s in ts
    decreases |ts|
  {
    if |ts| == 0 then xs else InsertAll(Insert(xs, ts[0]), ts[1..])
  }

  /** Every tag of every problem, collected in order into a sorted list. */
  function CollectTags(problems: seq<Problem>): (r: seq<string>)
    ensures StrictlySorted(r)
    ensures forall t :: t in r <==> exists i :: 0 <= i < |problems| && t in problems[i].tags
    decreases |problems|
  {
    if |problems| == 0 then []
    else
      var init := CollectTags(problems[..|problems| - 1]);
      var r := InsertAll(init, problems[|problems| - 1].tags);
      assert forall i :: 0 <= i < |problems| - 1 ==> problems[..|problems| - 1][i] == problems[i];
      r
  }

  /** `getTagOptions`: `All`, then every tag any problem carries, once each,
      in increasing order. */
  function GetTagOptions(problems: seq<Problem>): (r: seq<string>)
    ensures |r| >= 1 && r[0] == "All"
    ensures StrictlySorted(r[1..])
    ensures forall t :: t in r[1..] <==> exists i :: 0 <= i < |problems| && t in problems[i].tags
  {
    var tags := CollectTags(problems);
    assert (["All"] + tags)[1..] == tags;
    ["All"] + tags
  }

  /** `CATEGORY_ORDER`. */
  const CategoryOrder: seq<string> := ["Strings", "Arrays", "Numbers", "Collections", "Algorithms"]

  predicate HasCategory(problems: seq<Problem>, category: string) {
    exists i :: 0 <= i < |problems| && problems[i].category == category
  }

  function PresentCategories(order: seq<string>, problems: seq<Problem>): (r: seq<string>)
    ensures IsSubsequence(r, order)
    ensures forall c :: c in r <==> c in order && HasCategory(problems, c)
    decreases |order|
  {
    if |order| == 0 then []
    else
      var rest := PresentCategories(order[1..], problems);
      if HasCategory(problems, order[0]) then [order[0]] + rest else rest
  }

  /** `getCategoryOptions`: `All`, then the categories of the fixed order
      that some problem has, in that order. */
  function GetCategoryOptions(problems: seq<Problem>): (r: seq<string>)
    ensures |r| >= 1 && r[0] == "All"
    ensures IsSubsequence(r[1..], CategoryOrder)
    ensures forall c :: c in r[1..] <==> c in CategoryOrder && HasCategory(problems, c)
  {
    var present := PresentCategories(CategoryOrder, problems);
    assert (["All"] + present)[1..] == present;
    ["All"] + present
  }
}

=== FILE: equality.dfy ===
/** Structural equality used to grade a returned value against the expected
    one (`deepEqual` in src/lib/testRunner.js), together with the relation its
    object branch evidently means to compute. */
module DeepEquality {
  import opened Wrappers
  import opened Text
  import opened Seqs
  import opened JsValues

  /** How the object branch asks whether the other operand has a key:
      `hasOwnProperty` (what the source calls), or membership among the
      enumerable own keys (what comparing key sets means). The two differ only
      on an array's `length`. */
  datatype KeyTest = OwnProperty | EnumerableKey

  predicate HasKey(v: Value, k: string, test: KeyTest) {
    match test
    case OwnProperty => HasOwn(v, k)
    case EnumerableKey => k in OwnKeys(v)
  }

  /** The comparison, parameterised by the key test. In order: same value;
      two arrays, compared position by position; two object-likes (so also an
      array against a plain object), compared key by key over the keys of `a`
      after checking the key counts; otherwise unequal. */
  function Equal(a: Value, b: Value, test: KeyTest): bool
    decreases a
  {
    if SameValue(a, b) then true
    else if a.Arr? && b.Arr? then
      |a.elems| == |b.elems| &&
      forall i | 0 <= i < |a.elems| :: Equal(a.elems[i], b.elems[i], test)
    else if IsObjectLike(a) && IsObjectLike(b) then
      |OwnKeys(a)| == |OwnKeys(b)| &&
      match a
      case Arr(xs) =>
        forall i | 0 <= i < |xs| ::
          HasKey(b, IndexKey(i), test) && Equal(xs[i], Get(b, IndexKey(i)), test)
      case Obj(ps) =>
        forall i | 0 <= i < |ps| ::
          HasKey(b, ps[i].0, test) && Equal(ps[i].1, Get(b, ps[i].0), test)
    else false
  }

  /** `deepEqual(a, b)` as the source writes it. */
  predicate DeepEqual(a: Value, b: Value) {
    Equal(a, b, OwnProperty)
  }

  /** The same comparison with the key test the key-set check intends. */
  predicate KeyedDeepEqual(a: Value, b: Value) {
    Equal(a, b, EnumerableKey)
  }

  // ---------------------------------------------------------------------
  // Identity, primitives and arrays

  /** Every value a program can hold equals itself, under either key test. */
  lemma {:induction false} EqualReflexive(a: Value, test: KeyTest)
    requires WellFormed(a)
    ensures Equal(a, a, test)
    decreases a
  {
    match a
    case Arr(xs) =>
      forall i | 0 <= i < |xs| ensures Equal(xs[i], xs[i], test) {
        EqualReflexive(xs[i], test);
      }
    case Obj(ps) =>
      forall i | 0 <= i < |ps|
        ensures HasKey(a, ps[i].0, test) && Equal(ps[i].1, Get(a, ps[i].0), test)
      {
        assert KeysOf(ps)[i] == ps[i].0;
        LookupDistinct(ps, i);
        EqualReflexive(ps[i].1, test);
      }
    case _ =>
  }

  /** When either operand is a primitive or a function, the values are equal
      exactly when they are the same value: different kinds, different
      primitives and distinct functions are unequal. */
  lemma DeepEqualPrimitive(a: Value, b: Value)
    requires !IsObjectLike(a) || !IsObjectLike(b)
    ensures DeepEqual(a, b) <==> SameValue(a, b)
  {
  }

  /** Two arrays are equal exactly when they have the same length and are
      equal position by position. */
  lemma DeepEqualArrays(xs: seq<Value>, ys: seq<Value>)
    ensures DeepEqual(Arr(xs), Arr(ys)) <==>
              |xs| == |ys| && forall i :: 0 <= i < |xs| ==> DeepEqual(xs[i], ys[i])
  {
  }

  // ---------------------------------------------------------------------
  // The object branch

  /** The entry of an object-like value named by its `i`-th own key. */
  lemma GetOwnKey(a: Value, i: nat)
    requires WellFormed(a) && IsObjectLike(a) && i < |OwnKeys(a)|
    ensures a.Arr? ==> Get(a, OwnKeys(a)[i]) == a.elems[i]
    ensures a.Obj? ==> Get(a, OwnKeys(a)[i]) == a.props[i].1
  {
    if a.Arr? {
      ArrayIndexOfKey(i, |a.elems|);
      assert OwnKeys(a)[i] == Decimal(i);
      assert Decimal(i) != "length" by {
        assert '0' <= Decimal(i)[0] <= '9';
      }
    } else {
      LookupDistinct(a.props, i);
    }
  }

  /** Array against plain object, plain object against plain object: the
      operands are equal exactly when they have the same number of own keys
      and every own key of `a` is an own property of `b` holding an equal
      value. */
  lemma DeepEqualObjectLike(a: Value, b: Value)
    requires WellFormed(a) && IsObjectLike(a) && IsObjectLike(b) && !(a.Arr? && b.Arr?)
    ensures DeepEqual(a, b) <==>
              && |OwnKeys(a)| == |OwnKeys(b)|
              && forall i :: 0 <= i < |OwnKeys(a)| ==>
                   HasOwn(b, OwnKeys(a)[i]) && DeepEqual(Get(a, OwnKeys(a)[i]), Get(b, OwnKeys(a)[i]))
  {
    forall i | 0 <= i < |OwnKeys(a)|
      ensures a.Arr? ==> OwnKeys(a)[i] == IndexKey(i) && Get(a, OwnKeys(a)[i]) == a.elems[i]
      ensures a.Obj? ==> OwnKeys(a)[i] == a.props[i].0 && Get(a, OwnKeys(a)[i]) == a.props[i].1
    {
      GetOwnKey(a, i);
    }
  }

  /** With distinct names, the entry `(k, v)` is what looking up `k` finds. */
  lemma LookupMember(ps: seq<(string, Value)>, k: string, v: Value)
    requires DistinctKeys(ps) && (k, v) in ps
    ensures Lookup(ps, k) == v
  {
    var i :| 0 <= i < |ps| && ps[i] == (k, v);
    LookupDistinct(ps, i);
  }

  lemma KeysOfMember(ps: seq<(string, Value)>, qs: seq<(string, Value)>, k: string)
    requires multiset(ps) == multiset(qs)
    ensures k in KeysOf(ps) <==> k in KeysOf(qs)
  {
    if k in KeysOf(ps) {
      var i :| 0 <= i < |ps| && KeysOf(ps)[i] == k;
      assert ps[i] in multiset(qs);
      var j :| 0 <= j < |qs| && qs[j] == ps[i];
      assert KeysOf(qs)[j] == k;
    }
    if k in KeysOf(qs) {
      var j :| 0 <= j < |qs| && KeysOf(qs)[j] == k;
      assert qs[j] in multiset(ps);
      var i :| 0 <= i < |ps| && ps[i] == qs[j];
      assert KeysOf(ps)[i] == k;
    }
  }

  lemma LookupPermutation(ps: seq<(string, Value)>, qs: seq<(string, Value)>, k: string)
    requires DistinctKeys(ps) && DistinctKeys(qs) && multiset(ps) == multiset(qs)
    ensures Lookup(ps, k) == Lookup(qs, k)
  {
    KeysOfMember(ps, qs, k);
    if k in KeysOf(ps) {
      var i :| 0 <= i < |ps| && KeysOf(ps)[i] == k;
      assert ps[i] in multiset(qs);
      LookupDistinct(ps, i);
      LookupMember(qs, k, ps[i].1);
    }
  }

  lemma PermutedEntries(ps: seq<(string, Value)>, qs: seq<(string, Value)>)
    requires multiset(ps) == multiset(qs)
    ensures |ps| == |qs|
    ensures forall e :: e in ps <==> e in qs
  {
    assert |ps| == |multiset(ps)| == |multiset(qs)| == |qs|;
    forall e ensures e in ps <==> e in qs {
      assert e in ps <==> e in multiset(ps);
      assert e in qs <==> e in multiset(qs);
    }
  }

  /** Key order is irrelevant on the right: `b` sees the same keys holding the
      same values whichever order its properties are listed in. */
  lemma KeyOrderIrrelevantRight(a: Value, ps: seq<(string, Value)>, qs: seq<(string, Value)>, test: KeyTest)
    requires DistinctKeys(ps) && DistinctKeys(qs) && multiset(ps) == multiset(qs)
    ensures Equal(a, Obj(ps), test) == Equal(a, Obj(qs), test)
  {
    PermutedEntries(ps, qs);
    forall k
      ensures HasKey(Obj(ps), k, test) == HasKey(Obj(qs), k, test)
      ensures Get(Obj(ps), k) == Get(Obj(qs), k)
    {
      KeysOfMember(ps, qs, k);
      LookupPermutation(ps, qs, k);
    }
  }

  /** Key order is irrelevant on the left: the loop over the keys of `a` checks
      the same entries in another order. */
  lemma KeyOrderIrrelevantLeft(b: Value, ps: seq<(string, Value)>, qs: seq<(string, Value)>, test: KeyTest)
    requires multiset(ps) == multiset(qs)
    ensures Equal(Obj(ps), b, test) == Equal(Obj(qs), b, test)
  {
    EqualObject(ps, b, test);
    EqualObject(qs, b, test);
    PermutedEntries(ps, qs);
    if EntriesMatch(qs, b, test) {
      EntriesMatchPermuted(ps, qs, b, test);
    }
    if EntriesMatch(ps, b, test) {
      EntriesMatchPermuted(qs, ps, b, test);
    }
  }

  /** The loop over the properties of the left operand. */
  ghost predicate EntriesMatch(ps: seq<(string, Value)>, b: Value, test: KeyTest) {
    forall i | 0 <= i < |ps| :: HasKey(b, ps[i].0, test) && Equal(ps[i].1, Get(b, ps[i].0), test)
  }

  /** An object on the left is equal to an object-like `b` with as many keys
      whose entries all match. */
  lemma EqualObject(ps: seq<(string, Value)>, b: Value, test: KeyTest)
    ensures Equal(Obj(ps), b, test) <==> IsObjectLike(b) && |ps| == |OwnKeys(b)| && EntriesMatch(ps, b, test)
  {
  }

  lemma EntriesMatchPermuted(ps: seq<(string, Value)>, qs: seq<(string, Value)>, b: Value, test: KeyTest)
    requires forall e :: e in ps ==> e in qs
    requires EntriesMatch(qs, b, test)
    ensures EntriesMatch(ps, b, test)
  {
    forall i | 0 <= i < |ps|
      ensures HasKey(b, ps[i].0, test) && Equal(ps[i].1, Get(b, ps[i].0), test)
    {
      assert ps[i] in qs;
      var j :| 0 <= j < |qs| && qs[j] == ps[i];
    }
  }

  /** Nested arrays with equal entries are equal; swapping two entries breaks
      equality. */
  lemma ArrayExamples()
    ensures DeepEqual(Arr([Num(1), Arr([Num(2), Num(3)])]), Arr([Num(1), Arr([Num(2), Num(3)])]))
    ensures !DeepEqual(Arr([Num(1), Num(2)]), Arr([Num(2), Num(1)]))
  {
    EqualReflexive(Arr([Num(1), Arr([Num(2), Num(3)])]), OwnProperty);
    var xs := Arr([Num(1), Num(2)]);
    assert xs.elems[0] == Num(1);
    assert !DeepEqual(Num(1), Num(2));
  }

  /** Objects listing the same properties in another order are equal. */
  lemma ObjectOrderExample()
    ensures DeepEqual(Obj([("a", Num(1)), ("b", Num(2))]), Obj([("b", Num(2)), ("a", Num(1))]))
  {
    var ps := [("a", Num(1)), ("b", Num(2))];
    var qs := [("b", Num(2)), ("a", Num(1))];
    assert "a" != "b" by {
      assert "a"[0] != "b"[0];
    }
    assert DistinctKeys(ps) && DistinctKeys(qs);
    assert WellFormed(Obj(ps)) by {
      assert WellFormed(ps[0].1) && WellFormed(ps[1].1);
    }
    assert qs == [ps[1]] + [ps[0]];
    assert multiset(ps) == multiset(qs);
    EqualReflexive(Obj(ps), OwnProperty);
    KeyOrderIrrelevantRight(Obj(ps), ps, qs, OwnProperty);
  }

  /** An object with an extra key is not equal to one without it. */
  lemma ObjectExtraKeyExample()
    ensures !DeepEqual(Obj([("a", Num(1))]), Obj([("a", Num(1)), ("b", Num(2))]))
  {
    EqualObject([("a", Num(1))], Obj([("a", Num(1)), ("b", Num(2))]), OwnProperty);
  }

  /** The empty array and the empty object reach the object branch with no
      keys on either side, and so are equal both ways round. */
  lemma EmptyArrayEqualsEmptyObject()
    ensures DeepEqual(Arr([]), Obj([])) && DeepEqual(Obj([]), Arr([]))
  {
  }

  // ---------------------------------------------------------------------
  // The `length` property and symmetry

  /** An array owns `length` without listing it among its keys, so a plain
      object whose only key is `length` equals any one-element array when the
      object is the left operand, and not when it is the right one. */
  lemma LengthKeyBreaksSymmetry()
    ensures DeepEqual(Obj([("length", Num(1))]), Arr([Num(5)]))
    ensures !DeepEqual(Arr([Num(5)]), Obj([("length", Num(1))]))
  {
    assert KeysOf([("length", Num(1))]) == ["length"];
    assert IndexKey(0) == "0";
  }

  /** Own keys of a program's value name each property once. */
  lemma OwnKeysDistinct(v: Value)
    requires WellFormed(v)
    ensures Distinct(OwnKeys(v))
  {
    if v.Arr? {
      forall i, j | 0 <= i < j < |v.elems| ensures OwnKeys(v)[i] != OwnKeys(v)[j] {
        if OwnKeys(v)[i] == OwnKeys(v)[j] {
          DecimalInjective(i, j);
        }
      }
    }
  }

  /** The corrected relation is symmetric on every value a program can hold. */
  lemma {:induction false} KeyedDeepEqualSymmetric(a: Value, b: Value)
    requires WellFormed(a) && WellFormed(b)
    requires KeyedDeepEqual(a, b)
    ensures KeyedDeepEqual(b, a)
    decreases a
  {
    if SameValue(a, b) {
    } else if a.Arr? && b.Arr? {
      forall i | 0 <= i < |b.elems| ensures Equal(b.elems[i], a.elems[i], EnumerableKey) {
        KeyedDeepEqualSymmetric(a.elems[i], b.elems[i]);
      }
    } else {
      var ka, kb := OwnKeys(a), OwnKeys(b);
      OwnKeysDistinct(a);
      OwnKeysDistinct(b);
      assert forall i :: 0 <= i < |ka| ==> ka[i] in kb by {
        forall i | 0 <= i < |ka| ensures ka[i] in kb {
          if a.Arr? { assert ka[i] == IndexKey(i); } else { assert ka[i] == a.props[i].0; }
        }
      }
      SameElements(ka, kb);
      // every key of `b` is a key of `a` holding a symmetric-equal value
      forall j | 0 <= j < |kb|
        ensures kb[j] in ka
        ensures Equal(Get(b, kb[j]), Get(a, kb[j]), EnumerableKey)
      {
        var k := kb[j];
        assert k in kb;
        var i :| 0 <= i < |ka| && ka[i] == k;
        GetOwnKey(a, i);
        GetOwnKey(b, j);
        if a.Arr? {
          assert ka[i] == IndexKey(i);
          KeyedDeepEqualSymmetric(a.elems[i], Get(b, k));
        } else {
          assert ka[i] == a.props[i].0;
          KeyedDeepEqualSymmetric(a.props[i].1, Get(b, k));
        }
      }
      KeyedEqualBack(a, b);
    }
  }

  /** The corrected object branch with the operands swapped: every key of
      `b` is a key of `a` holding an equal value, and the key counts agree. */
  lemma KeyedEqualBack(a: Value, b: Value)
    requires WellFormed(b) && IsObjectLike(a) && IsObjectLike(b) && !(a.Arr? && b.Arr?)
    requires |OwnKeys(b)| == |OwnKeys(a)|
    requires forall j :: 0 <= j < |OwnKeys(b)| ==>
               OwnKeys(b)[j] in OwnKeys(a) && Equal(Get(b, OwnKeys(b)[j]), Get(a, OwnKeys(b)[j]), EnumerableKey)
    ensures Equal(b, a, EnumerableKey)
  {
    var kb := OwnKeys(b);
    if b.Arr? {
      forall j | 0 <= j < |b.elems|
        ensures HasKey(a, IndexKey(j), EnumerableKey) && Equal(b.elems[j], Get(a, IndexKey(j)), EnumerableKey)
      {
        assert kb[j] == IndexKey(j);
        GetOwnKey(b, j);
      }
    } else {
      forall j | 0 <= j < |b.props|
        ensures HasKey(a, b.props[j].0, EnumerableKey) && Equal(b.props[j].1, Get(a, b.props[j].0), EnumerableKey)
      {
        assert kb[j] == b.props[j].0;
        GetOwnKey(b, j);
      }
    }
  }

  /** No plain object anywhere inside `v` has a property named `length`. */
  predicate NoLengthKey(v: Value)
    decreases v
  {
    match v
    case Arr(xs) => forall i | 0 <= i < |xs| :: NoLengthKey(xs[i])
    case Obj(ps) => forall i | 0 <= i < |ps| :: ps[i].0 != "length" && NoLengthKey(ps[i].1)
    case _ => true
  }

  lemma OwnPropertyIsKey(b: Value, k: string)
    requires k != "length"
    ensures HasOwn(b, k) <==> k in OwnKeys(b)
  {
    if b.Arr? {
      if ArrayIndex(k, |b.elems|).Some? {
        var i := ArrayIndex(k, |b.elems|).value;
        assert OwnKeys(b)[i] == k;
      }
      if k in OwnKeys(b) {
        var i :| 0 <= i < |b.elems| && OwnKeys(b)[i] == k;
        ArrayIndexOfKey(i, |b.elems|);
      }
    }
  }

  /** Away from `length`-named properties on the left operand, the source's
      relation and the corrected one agree. */
  lemma {:induction false} DeepEqualAgreesWithoutLengthKey(a: Value, b: Value)
    requires NoLengthKey(a)
    ensures DeepEqual(a, b) == KeyedDeepEqual(a, b)
    decreases a
  {
    if SameValue(a, b) {
    } else if a.Arr? && b.Arr? {
      forall i | 0 <= i < |a.elems| && i < |b.elems|
        ensures DeepEqual(a.elems[i], b.elems[i]) == KeyedDeepEqual(a.elems[i], b.elems[i])
      {
        DeepEqualAgreesWithoutLengthKey(a.elems[i], b.elems[i]);
      }
    } else if IsObjectLike(a) && IsObjectLike(b) {
      match a
      case Arr(xs) =>
        forall i | 0 <= i < |xs|
          ensures HasOwn(b, IndexKey(i)) == HasKey(b, IndexKey(i), EnumerableKey)
          ensures DeepEqual(xs[i], Get(b, IndexKey(i))) == KeyedDeepEqual(xs[i], Get(b, IndexKey(i)))
        {
          assert '0' <= IndexKey(i)[0] <= '9';
          OwnPropertyIsKey(b, IndexKey(i));
          DeepEqualAgreesWithoutLengthKey(xs[i], Get(b, IndexKey(i)));
        }
      case Obj(ps) =>
        forall i | 0 <= i < |ps|
          ensures HasOwn(b, ps[i].0) == HasKey(b, ps[i].0, EnumerableKey)
          ensures DeepEqual(ps[i].1, Get(b, ps[i].0)) == KeyedDeepEqual(ps[i].1, Get(b, ps[i].0))
        {
          OwnPropertyIsKey(b, ps[i].0);
          DeepEqualAgreesWithoutLengthKey(ps[i].1, Get(b, ps[i].0));
        }
    }
  }

  /** The source's relation is symmetric on values without `length`-named
      properties, which covers every value the catalog's tests use. */
  lemma DeepEqualSymmetricWithoutLengthKey(a: Value, b: Value)
    requires WellFormed(a) && WellFormed(b) && NoLengthKey(a) && NoLengthKey(b)
    ensures DeepEqual(a, b) == DeepEqual(b, a)
  {
    DeepEqualAgreesWithoutLengthKey(a, b);
    DeepEqualAgreesWithoutLengthKey(b, a);
    if KeyedDeepEqual(a, b) {
      KeyedDeepEqualSymmetric(a, b);
    }
    if KeyedDeepEqual(b, a) {
      KeyedDeepEqualSymmetric(b, a);
    }
  }
}

=== FILE: export.dfy ===
/** The review-request export (src/components/ExportPanel.jsx): a Markdown
    document built line by line from the problem, the learner's code and the
    last grading outcome, then joined with newlines and trimmed at the end. */
module Export {
  import opened Wrappers
  import opened Text
  import opened Seqs
  import opened Grading

  /** `translateOutcome`: the three outcomes get a marker in front, any other
      non-empty text passes through, and the empty (falsy) text becomes
      `unknown`. */
  function TranslateOutcome(outcome: string): (r: string)
    ensures outcome == "pass" ==> r == "✅ pass"
    ensures outcome == "fail" ==> r == "❌ fail"
    ensures outcome == "error" ==> r == "⚠️ error"
    ensures outcome == "" ==> r == "unknown"
    ensures outcome != "" ==> |r| >= |outcome| && r[|r| - |outcome|..] == outcome
    ensures outcome !in {"pass", "fail", "error"} && outcome != "" ==> r == outcome
  {
    if outcome == "pass" then "✅ pass"
    else if outcome == "fail" then "❌ fail"
    else if outcome == "error" then "⚠️ error"
    else if outcome == "" then "unknown"
    else outcome
  }

  /** The label of an item tells its outcome: the three outcomes an item can
      have get three different labels. */
  lemma TranslatedItemOutcomesDiffer(a: Item, b: Item)
    ensures TranslateOutcome(a.Outcome()) == TranslateOutcome(b.Outcome()) <==> a.Outcome() == b.Outcome()
  {
    var x := TranslateOutcome(a.Outcome());
    var y := TranslateOutcome(b.Outcome());
    if a.Outcome() != b.Outcome() {
      assert x[0] != y[0];
    }
  }

  // ---------------------------------------------------------------------
  // Line groups

  const Preamble := [
    "# レビュー依頼",
    "あなたはプロの JavaScript コードレビュワーです。以下の情報を読み、学習者の解答を評価してください。",
    "改善点があれば **具体的な指摘と修正例** を提示し、問題なく合格と判断する場合はその根拠を明記してください。",
    "必ず以下の観点をカバーしてください: 正しさ、パフォーマンス、可読性、拡張性、安全性。",
    ""
  ]

  const Footer := [
    "---",
    "### 出力テンプレート",
    "1. **総合評価**: 合格/保留/不合格 + 理由の要約",
    "2. **指摘事項**: 箇条書きで具体的な改善点とサンプルコード",
    "3. **アドバイス**: 今後の学習に向けた助言",
    ""
  ]

  const CodePlaceholder := "// コードが未入力です"
  const NotRunLine := "- まだテストを実行していません。"
  const ResultHeader := "## テスト結果"

  function Bullets(items: seq<string>): (r: seq<string>)
    ensures |r| == |items| && forall i :: 0 <= i < |r| ==> r[i] == "- " + items[i]
  {
    seq(|items|, i requires 0 <= i < |items| => "- " + items[i])
  }

  /** The overview: id, title and difficulty always; category and tags only
      when present; a blank line; then the summary and prompt (trimmed) and
      the constraint list, each only when non-empty and closed by a blank
      line. */
  function OverviewLines(p: Problem): (r: seq<string>)
    ensures |r| == FactCount(p) + (if |p.summary| > 0 then 3 else 0) + (if |p.prompt| > 0 then 3 else 0)
                   + (if |p.constraints| > 0 then |p.constraints| + 2 else 0)
    ensures r[..4] == ["## 問題概要", "- ID: " + p.id, "- タイトル: " + p.title, "- 難易度: " + p.difficulty.Name()]
    ensures |p.category| > 0 ==> r[4] == "- カテゴリ: " + p.category
    ensures |p.tags| > 0 ==> r[FactCount(p) - 2] == "- タグ: " + Join(p.tags, ", ")
    ensures r[FactCount(p) - 1] == ""
    ensures var f := FactCount(p);
            |p.summary| > 0 ==> r[f..f + 3] == ["### サマリー", Trim(p.summary), ""]
    ensures var g := FactCount(p) + (if |p.summary| > 0 then 3 else 0);
            |p.prompt| > 0 ==> r[g..g + 3] == ["### 問題文", Trim(p.prompt), ""]
    ensures |p.constraints| > 0 ==>
              r[|r| - |p.constraints| - 2] == "### 制約" && r[|r| - |p.constraints| - 1..] == Bullets(p.constraints) + [""]
  {
    var facts := FactLines(p);
    var summary := TextSection("### サマリー", p.summary);
    var prompt := TextSection("### 問題文", p.prompt);
    var constraints := ConstraintLines(p.constraints);
    Quarters(facts, summary, prompt, constraints);
    facts + summary + prompt + constraints
  }

  /** How many lines the facts take: five, plus one each for a category and
      for tags. */
  function FactCount(p: Problem): nat {
    5 + (if |p.category| > 0 then 1 else 0) + (if |p.tags| > 0 then 1 else 0)
  }

  /** The fixed facts, the optional category and tags, and a blank line. */
  function FactLines(p: Problem): (r: seq<string>)
    ensures |r| == FactCount(p)
    ensures r[..4] == ["## 問題概要", "- ID: " + p.id, "- タイトル: " + p.title, "- 難易度: " + p.difficulty.Name()]
    ensures |p.category| > 0 ==> r[4] == "- カテゴリ: " + p.category
    ensures |p.tags| > 0 ==> r[|r| - 2] == "- タグ: " + Join(p.tags, ", ")
    ensures r[|r| - 1] == ""
  {
    ["## 問題概要", "- ID: " + p.id, "- タイトル: " + p.title, "- 難易度: " + p.difficulty.Name()]
    + (if |p.category| > 0 then ["- カテゴリ: " + p.category] else [])
    + (if |p.tags| > 0 then ["- タグ: " + Join(p.tags, ", ")] else [])
    + [""]
  }

  /** A headed paragraph holding the trimmed text, absent for empty text. */
  function TextSection(heading: string, text: string): (r: seq<string>)
    ensures |r| == if |text| > 0 then 3 else 0
    ensures |text| > 0 ==> r == [heading, Trim(text), ""]
  {
    if |text| > 0 then [heading, Trim(text), ""] else []
  }

  /** The constraint list, absent when there are none. */
  function ConstraintLines(constraints: seq<string>): (r: seq<string>)
    ensures |r| == if |constraints| > 0 then |constraints| + 2 else 0
    ensures |constraints| > 0 ==> r[0] == "### 制約" && r[1..] == Bullets(constraints) + [""]
  {
    if |constraints| > 0 then ["### 制約"] + Bullets(constraints) + [""] else []
  }

  /** Each of four concatenated parts can be read back at its offset. */
  lemma Quarters(a: seq<string>, b: seq<string>, c: seq<string>, d: seq<string>)
    ensures var r := a + b + c + d;
            && (|a| >= 4 ==> r[..4] == a[..4])
            && r[..|a|] == a
            && r[|a|..|a| + |b|] == b
            && r[|a| + |b|..|a| + |b| + |c|] == c
            && r[|a| + |b| + |c|..] == d
  {
  }

  /** The code block, with a placeholder comment for empty code. */
  function CodeLines(code: string): (r: seq<string>)
    ensures |r| == 5 && r[1] == "```javascript" && r[3] == "```"
    ensures r[2] == (if code == "" then CodePlaceholder else code)
  {
    ["## 受験者コード", "```javascript", if code == "" then CodePlaceholder else code, "```", ""]
  }

  function CaseHeading(number: nat, description: string): string {
    "#### ケース " + Decimal(number) + ": " + (if description == "" then "テスト" else description)
  }

  function InputLines(item: Item): (r: seq<string>)
    ensures |r| == (if |item.args| > 0 then 1 else 0)
  {
    if |item.args| > 0 then ["- 入力: " + Join(item.args, ", ")] else []
  }

  /** The verdict's details: the error line, followed by the stack in a
      fence only when there is one, or the expected and received texts. */
  function DetailLines(item: Item): (r: seq<string>)
    ensures |r| == (if item.verdict.Judged? then 2 else if item.verdict.stack == "" then 1 else 4)
    ensures item.verdict.Raised? ==>
              && r[0] == "- エラー: " + item.verdict.error
              && (item.verdict.stack != "" ==> r[1..] == ["```", item.verdict.stack, "```"])
    ensures item.verdict.Judged? ==>
              r == ["- 期待値: " + item.verdict.expected, "- 戻り値: " + item.verdict.received]
  {
    match item.verdict
    case Raised(error, stack) =>
      ["- エラー: " + error] + (if stack != "" then ["```", stack, "```"] else [])
    case Judged(_, expected, received) =>
      ["- 期待値: " + expected, "- 戻り値: " + received]
  }

  /** One case section: heading numbered from 1, translated outcome, the
      input when there are arguments, then either the error (with the stack
      fenced when it is non-empty) or the expected and received texts, and a
      closing blank line. */
  function ItemLines(index: nat, item: Item): (r: seq<string>)
    ensures |r| == 3 + (if |item.args| > 0 then 1 else 0) +
                  (if item.verdict.Judged? then 2 else if item.verdict.stack == "" then 1 else 4)
    ensures r[0] == CaseHeading(index + 1, item.description)
    ensures r[1] == "- 結果: " + TranslateOutcome(item.Outcome())
    ensures r[|r| - 1] == ""
    ensures |item.args| > 0 ==> r[2] == "- 入力: " + Join(item.args, ", ")
    ensures item.verdict.Raised? ==> "- エラー: " + item.verdict.error in r
    ensures item.verdict.Judged? ==>
              "- 期待値: " + item.verdict.expected in r && "- 戻り値: " + item.verdict.received in r
  {
    var input := InputLines(item);
    var detail := DetailLines(item);
    var r := [CaseHeading(index + 1, item.description)] + ItemBody(item);
    assert r == [CaseHeading(index + 1, item.description), "- 結果: " + TranslateOutcome(item.Outcome())]
                + input + detail + [""];
    assert r[2 + |input|] == detail[0];
    assert item.verdict.Judged? ==> r[3 + |input|] == detail[1];
    r
  }

  /** The case sections of `items`, numbered from `start + 1`. */
  function CaseLines(items: seq<Item>, start: nat): seq<string>
    decreases |items|
  {
    if |items| == 0 then [] else ItemLines(start, items[0]) + CaseLines(items[1..], start + 1)
  }

  /** The result section before the case details of a run that compiled:
      status, message, the duration when it is a number, and the details
      heading. */
  function RunHead(s: Summary): (r: seq<string>)
    ensures |r| == (if s.durationMs.Some? then 6 else 5)
    ensures r[0] == ResultHeader && r[1] == "- ステータス: " + TranslateOutcome(s.status.Name())
    ensures r[2] == "- メッセージ: " + s.message
    ensures s.durationMs.Some? ==> r[3] == "- 実行時間: " + s.durationMs.value + "ms"
    ensures r[|r| - 2] == "" && r[|r| - 1] == "### ケース詳細"
  {
    var facts := [ResultHeader, "- ステータス: " + TranslateOutcome(s.status.Name()), "- メッセージ: " + s.message];
    var duration := if s.durationMs.Some? then ["- 実行時間: " + s.durationMs.value + "ms"] else [];
    facts + duration + ["", "### ケース詳細"]
  }

  /** The result section: a single line when nothing ran; only status and
      message for a compile error; otherwise the run's head and one section
      per item. */
  function ResultLines(result: Option<GradingOutcome>): (r: seq<string>)
    ensures |r| >= 2 && r[0] == ResultHeader
    ensures result.None? ==> r == [ResultHeader, NotRunLine]
    ensures result.Some? && result.value.summary.status == CompileError ==>
              r == [ResultHeader, "- ステータス: ⚠️ compile-error", "- メッセージ: " + result.value.summary.message]
    ensures result.Some? && result.value.summary.status != CompileError ==>
              r == RunHead(result.value.summary) + CaseLines(result.value.items, 0)
  {
    match result
    case None => [ResultHeader, NotRunLine]
    case Some(outcome) =>
      var s := outcome.summary;
      if s.status == CompileError then
        [ResultHeader, "- ステータス: ⚠️ compile-error", "- メッセージ: " + s.message]
      else
        RunHead(s) + CaseLines(outcome.items, 0)
  }

  /** Every line of the document before the closing empty line. */
  function MarkdownBody(p: Problem, code: string, result: Option<GradingOutcome>): (r: seq<string>)
    ensures |r| > 0 && r[|r| - 1] == Footer[|Footer| - 2]
  {
    Preamble + OverviewLines(p) + CodeLines(code) + ResultLines(result) + Footer[..|Footer| - 1]
  }

  /** Every line of the document, the closing empty line included. */
  function MarkdownLines(p: Problem, code: string, result: Option<GradingOutcome>): (r: seq<string>)
    ensures r == MarkdownBody(p, code, result) + [""]
  {
    assert Footer == Footer[..|Footer| - 1] + [""];
    Preamble + OverviewLines(p) + CodeLines(code) + ResultLines(result) + Footer
  }

  /** `buildMarkdown`: nothing without a problem; otherwise the lines joined
      with newlines, with trailing whitespace removed. */
  function BuildMarkdown(problem: Option<Problem>, code: string, result: Option<GradingOutcome>): (r: string)
    ensures problem.None? ==> r == ""
    ensures |r| == 0 || !IsWhitespace(r[|r| - 1])
  {
    match problem
    case None => ""
    case Some(p) => TrimEnd(Join(MarkdownLines(p, code, result), "\n"))
  }

  // ---------------------------------------------------------------------
  // Properties

  /** The trailing trim removes exactly the newline before the closing empty
      line: the document is the join of all the other lines, and it ends with
      the last line of the output template. */
  lemma TrimRemovesOnlyClosingLine(p: Problem, code: string, result: Option<GradingOutcome>)
    ensures var j := Join(MarkdownBody(p, code, result), "\n");
            && BuildMarkdown(Some(p), code, result) == j
            && |j| >= |Footer[|Footer| - 2]| && j[|j| - |Footer[|Footer| - 2]|..] == Footer[|Footer| - 2]
  {
    var body := MarkdownBody(p, code, result);
    var last := Footer[|Footer| - 2];
    assert |last| > 0 && !IsWhitespace(last[|last| - 1]) by {
      assert last[|last| - 1] == '言';
    }
    TrimClosingEmptyLine(body);
  }

  /** Joining lines that end with an empty one and trimming the end gives
      the join of the other lines when the last of them ends in a visible
      character. */
  lemma TrimClosingEmptyLine(body: seq<string>)
    requires |body| > 0
    requires var last := body[|body| - 1]; |last| > 0 && !IsWhitespace(last[|last| - 1])
    ensures var j := Join(body, "\n");
            var last := body[|body| - 1];
            && TrimEnd(Join(body + [""], "\n")) == j
            && |j| >= |last| && j[|j| - |last|..] == last
  {
    var last := body[|body| - 1];
    JoinAppend(body, [""], "\n");
    JoinEndsWithLast(body, "\n");
    var j := Join(body, "\n");
    assert j[|j| - 1] == j[|j| - |last|..][|last| - 1] == last[|last| - 1];
    assert Join([""], "\n") == "";
    assert Join(body + [""], "\n") == j + "\n";
    TrimEndWhitespaceTail(j, "\n");
  }

  /** Lines that start a case section. */
  predicate IsHeading(line: string) {
    |line| >= 5 && line[..5] == "#### "
  }

  function Headings(lines: seq<string>): (r: seq<string>)
    ensures forall k :: 0 <= k < |r| ==> IsHeading(r[k])
    decreases |lines|
  {
    if |lines| == 0 then []
    else (if IsHeading(lines[0]) then [lines[0]] else []) + Headings(lines[1..])
  }

  lemma {:induction false} HeadingsAppend(a: seq<string>, b: seq<string>)
    ensures Headings(a + b) == Headings(a) + Headings(b)
    decreases |a|
  {
    if |a| == 0 {
      assert a + b == b;
    } else {
      assert (a + b)[0] == a[0] && (a + b)[1..] == a[1..] + b;
      HeadingsAppend(a[1..], b);
    }
  }

  /** A case section holds exactly its own heading, unless the item's stack
      text itself starts like one. */
  lemma ItemHeadings(index: nat, item: Item)
    requires item.verdict.Raised? ==> !IsHeading(item.verdict.stack)
    ensures Headings(ItemLines(index, item)) == [CaseHeading(index + 1, item.description)]
  {
    var h := CaseHeading(index + 1, item.description);
    var rest := ItemBody(item);
    CaseHeadingIsHeading(index + 1, item.description);
    ItemBodyNoHeadings(item);
    HeadingsAppend([h], rest);
    assert ItemLines(index, item) == [h] + rest;
  }

  lemma CaseHeadingIsHeading(number: nat, description: string)
    ensures IsHeading(CaseHeading(number, description))
  {
    var h := CaseHeading(number, description);
    assert h[..5] == "#### ";
  }

  /** A case section after its heading. */
  function ItemBody(item: Item): seq<string> {
    ["- 結果: " + TranslateOutcome(item.Outcome())] + InputLines(item) + DetailLines(item) + [""]
  }

  lemma ItemBodyNoHeadings(item: Item)
    requires item.verdict.Raised? ==> !IsHeading(item.verdict.stack)
    ensures Headings(ItemBody(item)) == []
  {
    var body := ItemBody(item);
    var input := InputLines(item);
    var detail := DetailLines(item);
    forall k | 0 <= k < |body| ensures !IsHeading(body[k]) {
      if k == 0 {
        NotHeading(body[0]);
      } else if k <= |input| {
        assert body[k] == input[k - 1];
        NotHeading(input[k - 1]);
      } else if k <= |input| + |detail| {
        var d := k - 1 - |input|;
        assert body[k] == detail[d];
        if item.verdict.Judged? || d != 2 {
          NotHeading(detail[d]);
        }
      }
    }
    NoHeadings(body);
  }

  /** A line the section writes itself (not a stack text) is no heading. */
  lemma NotHeading(line: string)
    requires |line| > 0 && (line[0] == '-' || line[0] == '`')
    ensures !IsHeading(line)
  {
    if |line| >= 5 {
      assert line[..5][0] == line[0];
    }
  }

  lemma {:induction false} NoHeadings(lines: seq<string>)
    requires forall k :: 0 <= k < |lines| ==> !IsHeading(lines[k])
    ensures Headings(lines) == []
    decreases |lines|
  {
    if |lines| > 0 {
      NoHeadings(lines[1..]);
    }
  }

  /** The headings the case details should hold: one per item, numbered
      from `start + 1` in item order. */
  function NumberedHeadings(items: seq<Item>, start: nat): (r: seq<string>)
    ensures |r| == |items|
    ensures forall k :: 0 <= k < |r| ==> r[k] == CaseHeading(start + k + 1, items[k].description)
    decreases |items|
  {
    if |items| == 0 then []
    else
      var rest := NumberedHeadings(items[1..], start + 1);
      assert forall k :: 1 <= k < |items| ==> items[1..][k - 1] == items[k];
      [CaseHeading(start + 1, items[0].description)] + rest
  }

  /** The case details hold one heading per item, numbered from 1 in item
      order (stack texts that start like a heading aside). */
  lemma {:induction false} CaseHeadings(items: seq<Item>, start: nat)
    requires forall k :: 0 <= k < |items| && items[k].verdict.Raised? ==> !IsHeading(items[k].verdict.stack)
    ensures Headings(CaseLines(items, start)) == NumberedHeadings(items, start)
    decreases |items|
  {
    if |items| > 0 {
      ItemHeadings(start, items[0]);
      CaseHeadings(items[1..], start + 1);
      HeadingsAppend(ItemLines(start, items[0]), CaseLines(items[1..], start + 1));
    }
  }

  /** The result section holds one case heading per item, numbered from 1
      in item order, after a run that compiled; none otherwise. */
  lemma ResultHeadings(result: Option<GradingOutcome>)
    requires result.Some? ==>
               forall k :: 0 <= k < |result.value.items| && result.value.items[k].verdict.Raised? ==>
                 !IsHeading(result.value.items[k].verdict.stack)
    ensures result.None? || result.value.summary.status == CompileError ==> Headings(ResultLines(result)) == []
    ensures result.Some? && result.value.summary.status != CompileError ==>
              Headings(ResultLines(result)) == NumberedHeadings(result.value.items, 0)
  {
    var r := ResultLines(result);
    if result.None? || result.value.summary.status == CompileError {
      ShortResultNoHeadings(result);
    } else {
      var items := result.value.items;
      RunHeadNoHeadings(result.value.summary);
      CaseHeadings(items, 0);
      HeadingsAppend(RunHead(result.value.summary), CaseLines(items, 0));
    }
  }

  lemma ShortResultNoHeadings(result: Option<GradingOutcome>)
    requires result.None? || result.value.summary.status == CompileError
    ensures Headings(ResultLines(result)) == []
  {
    var r := ResultLines(result);
    LineNotHeading(r[0]);
    assert r[1][0] == '-';
    LineNotHeading(r[1]);
    if |r| > 2 {
      assert r[2][0] == '-';
      LineNotHeading(r[2]);
    }
    NoHeadings(r);
  }

  lemma RunHeadNoHeadings(s: Summary)
    ensures Headings(RunHead(s)) == []
  {
    var r := RunHead(s);
    forall k | 0 <= k < |r| ensures !IsHeading(r[k]) {
      if k == 0 || k == |r| - 1 {
        LineNotHeading(r[k]);
      } else if k == |r| - 2 {
        LineNotHeading(r[k]);
      } else {
        assert r[k][0] == '-';
        LineNotHeading(r[k]);
      }
    }
    NoHeadings(r);
  }

  /** Lines that are empty, start with `-`, or start with up to three `#`
      and a space are no headings. */
  lemma LineNotHeading(line: string)
    requires |line| == 0 || line[0] == '-' || (|line| >= 3 && line[..3] == "## ") ||
             (|line| >= 4 && line[..4] == "### ")
    ensures !IsHeading(line)
  {
    if |line| >= 5 {
      assert line[..5][0] == line[0] && line[..5][2] == line[2] && line[..5][3] == line[3];
    }
  }

  /** The fence of a stack block appears in a case section exactly when the
      item is an error with a non-empty stack. */
  lemma StackFenceIffStack(index: nat, item: Item)
    ensures "```" in ItemLines(index, item) <==> item.verdict.Raised? && item.verdict.stack != ""
  {
    var r := ItemLines(index, item);
    if item.verdict.Raised? && item.verdict.stack != "" {
      assert r[|r| - 2] == DetailLines(item)[3] == "```";
    } else {
      var h := CaseHeading(index + 1, item.description);
      var res := "- 結果: " + TranslateOutcome(item.Outcome());
      var input := InputLines(item);
      var detail := DetailLines(item);
      assert r == [h] + ([res] + input + detail + [""]);
      assert h != "```" by {
        assert h[0] == '#';
      }
      assert res != "```" by {
        assert res[0] == '-';
      }
      assert "```" !in input by {
        if |input| > 0 {
          assert input[0][0] == '-';
        }
      }
      assert "```" !in detail by {
        assert detail[0][0] == '-';
        if item.verdict.Judged? {
          assert detail[1][0] == '-';
        }
      }
    }
  }
}

=== FILE: format.dfy ===
/** The value-to-text renderer used for every argument, expected value and
    returned value shown to the learner (`formatValue` in
    src/lib/testRunner.js). */
module Formatting {
  import opened Wrappers
  import opened JsValues

  /** What the renderer borrows from the JavaScript host and the model keeps
      abstract: `JSON.stringify` of a string, `JSON.stringify(v, null, 2)`
      (`None` when it throws), a function's source text, and `String(v)`. */
  datatype Host = Host(
    quote: string -> string,
    pretty: Value -> Option<string>,
    source: nat -> string,
    toText: Value -> string)

  /** Total: a string renders JSON-quoted, `undefined` as the word
      `undefined`, a function as its source text, anything else as indented
      JSON, or as `String(value)` if serialisation throws. */
  function FormatValue(host: Host, v: Value): (r: string)
    ensures v.Str? ==> r == host.quote(v.s)
    ensures v.Undefined? ==> r == "undefined"
    ensures v.Fn? ==> r == host.source(v.id)
    ensures !v.Str? && !v.Undefined? && !v.Fn? ==>
              (host.pretty(v).Some? && r == host.pretty(v).value) ||
              (host.pretty(v).None? && r == host.toText(v))
  {
    match v
    case Str(s) => host.quote(s)
    case Undefined => "undefined"
    case Fn(id) => host.source(id)
    case _ => host.pretty(v).GetOr(host.toText(v))
  }

  /** Every argument rendered, in order (`rawArgs.map(formatValue)`). */
  function FormatAll(host: Host, vs: seq<Value>): (r: seq<string>)
    ensures |r| == |vs|
    ensures forall i :: 0 <= i < |vs| ==> r[i] == FormatValue(host, vs[i])
  {
    seq(|vs|, i requires 0 <= i < |vs| => FormatValue(host, vs[i]))
  }
}

=== FILE: grading.dfy ===
/** The records the grading core consumes and produces: problem definitions
    and their test cases (read from the catalog), the per-case results and the
    summary of a run (read by the result panel, the problem list and the
    Markdown export). */
module Grading {
  import opened Wrappers
  import opened JsValues

  /** A thrown error: its `message`, and its `stack` when that is a string. */
  datatype Thrown = Thrown(message: string, stack: Option<string>)

  /** A compiled entry point: called with positional arguments, it returns a
      value or throws. */
  type Solver = seq<Value> -> Result<Value, Thrown>

  /** How a case is checked: by structural comparison with an expected value
      (possibly `undefined`), or by a custom `assert` function whose return
      value is read for truthiness and which may itself throw. */
  datatype Check =
    | Expect(expected: Value)
    | Assert(pred: Value -> Result<Value, Thrown>)

  /** One test case. `args` is kept as the raw value the catalog supplies:
      the runner only calls the solver with it when it is an array. */
  datatype TestCase = TestCase(description: string, args: Value, check: Check)

  datatype Difficulty = Easy | Medium | Hard {
    function Name(): string {
      match this
      case Easy => "Easy"
      case Medium => "Medium"
      case Hard => "Hard"
    }
  }

  /** A catalog entry. Text fields the catalog leaves out are empty. */
  datatype Problem = Problem(
    id: string,
    title: string,
    summary: string,
    difficulty: Difficulty,
    tags: seq<string>,
    functionName: string,
    category: string,
    prompt: string,
    starterCode: string,
    constraints: seq<string>,
    tests: seq<TestCase>)

  /** What happened in one case: the solver returned and was judged (with the
      expected and received texts), or something threw. */
  datatype Verdict =
    | Judged(passed: bool, expected: string, received: string)
    | Raised(error: string, stack: string)

  datatype Item = Item(description: string, args: seq<string>, verdict: Verdict) {
    predicate Passed() {
      verdict.Judged? && verdict.passed
    }

    /** The `outcome` field: `pass`, `fail` or `error`. */
    function Outcome(): string {
      if verdict.Raised? then "error" else if verdict.passed then "pass" else "fail"
    }
  }

  datatype Status = Pass | Fail | CompileError {
    function Name(): string {
      match this
      case Pass => "pass"
      case Fail => "fail"
      case CompileError => "compile-error"
    }
  }

  /** `durationMs` is the caller's clock reading, already rendered; `None`
      stands for a summary whose duration is not a number. */
  datatype Summary = Summary(status: Status, message: string, durationMs: Option<string>)

  datatype GradingOutcome = GradingOutcome(summary: Summary, items: seq<Item>)

  /** The three shapes of an ad-hoc run's result. */
  datatype CustomOutcome =
    | AdhocCompileError(message: string, durationMs: string)
    | AdhocSuccess(value: Value, formatted: string, durationMs: string)
    | AdhocRuntimeError(message: string, stack: string, durationMs: string)
}

=== FILE: parentheses.dfy ===
/** The stack-based bracket checker of the `isValidParentheses` reference
    solution (src/problems/index.js), and its agreement with the grammar of
    well-nested brackets. */
module Parentheses {
  import opened Wrappers

  predicate IsOpener(c: char) {
    c == '(' || c == '[' || c == '{'
  }

  /** The lookup `pairs[c]`: the opener a closer expects, `undefined`
      (`None`) for every other character. */
  function OpenerOf(c: char): Option<char> {
    if c == ')' then Some('(') else if c == ']' then Some('[') else if c == '}' then Some('{') else None
  }

  /** `stack.pop()`'s value: the top, or `undefined` on an empty stack. */
  function Top(stack: seq<char>): Option<char> {
    if |stack| == 0 then None else Some(stack[|stack| - 1])
  }

  function Pop(stack: seq<char>): seq<char> {
    if |stack| == 0 then [] else stack[..|stack| - 1]
  }

  /** The loop of the reference solution from a given stack: an opener is
      pushed; any other character pops, and the scan fails unless the popped
      value equals `pairs[c]`. The final stack is returned. */
  function Scan(text: string, stack: seq<char>): Option<seq<char>>
    decreases |text|
  {
    if |text| == 0 then Some(stack)
    else if IsOpener(text[0]) then Scan(text[1..], stack + [text[0]])
    else if Top(stack) != OpenerOf(text[0]) then None
    else Scan(text[1..], Pop(stack))
  }

  /** `isValidParentheses`, written as the source's loop. */
  method IsValidParentheses(text: string) returns (valid: bool)
    ensures valid <==> Scan(text, []) == Some([])
  {
    var stack: seq<char> := [];
    for i := 0 to |text|
      invariant Scan(text, []) == Scan(text[i..], stack)
    {
      var c := text[i];
      assert text[i..][0] == c && text[i..][1..] == text[i + 1..];
      if IsOpener(c) {
        stack := stack + [c];
      } else {
        var popped := Top(stack);
        stack := Pop(stack);
        if popped != OpenerOf(c) {
          return false;
        }
      }
    }
    return |stack| == 0;
  }

  // ---------------------------------------------------------------------
  // The grammar of well-nested brackets

  predicate BracketsOnly(s: string) {
    forall i :: 0 <= i < |s| ==> IsOpener(s[i]) || OpenerOf(s[i]).Some?
  }

  /** Empty, or an opener, a balanced inside, its own closer, and a balanced
      rest. */
  predicate Balanced(s: string)
    decreases |s|, 1
  {
    |s| == 0 || (IsOpener(s[0]) && exists j | 1 <= j < |s| :: ClosesAt(s, j))
  }

  /** The first character is closed at `j`, with balanced text between the
      two and after the closer. */
  predicate ClosesAt(s: string, j: int)
    requires 1 <= j < |s|
    decreases |s|, 0
  {
    OpenerOf(s[j]) == Some(s[0]) && Balanced(s[1..j]) && Balanced(s[j + 1..])
  }

  lemma {:induction false} ScanAppend(a: string, b: string, stack: seq<char>)
    ensures Scan(a + b, stack) == match Scan(a, stack) case None => None case Some(s) => Scan(b, s)
    decreases |a|
  {
    if |a| == 0 {
      assert a + b == b;
    } else {
      assert (a + b)[0] == a[0] && (a + b)[1..] == a[1..] + b;
      if IsOpener(a[0]) {
        ScanAppend(a[1..], b, stack + [a[0]]);
      } else if Top(stack) == OpenerOf(a[0]) {
        ScanAppend(a[1..], b, Pop(stack));
      }
    }
  }

  /** The scan pushes an opener and goes on. */
  lemma ScanOpen(s: string, stack: seq<char>)
    requires |s| > 0 && IsOpener(s[0])
    ensures Scan(s, stack) == Scan(s[1..], stack + [s[0]])
  {
  }

  /** The scan pops a matching opener for a closer and goes on. */
  lemma ScanClose(s: string, stack: seq<char>)
    requires |s| > 0 && !IsOpener(s[0]) && Top(stack) == OpenerOf(s[0])
    ensures Scan(s, stack) == Scan(s[1..], Pop(stack))
  {
  }

  /** A balanced text leaves any stack as it found it. */
  lemma {:induction false} BalancedScan(s: string, stack: seq<char>)
    requires Balanced(s)
    ensures Scan(s, stack) == Some(stack)
    decreases |s|
  {
    if |s| > 0 {
      var j :| 1 <= j < |s| && ClosesAt(s, j);
      var pushed := stack + [s[0]];
      ScanOpen(s, stack);
      assert s[1..] == s[1..j] + s[j..];
      BalancedScan(s[1..j], pushed);
      ScanAppend(s[1..j], s[j..], pushed);
      var closing := s[j..];
      assert closing[0] == s[j] && closing[1..] == s[j + 1..];
      assert Top(pushed) == Some(s[0]) && Pop(pushed) == stack;
      ScanClose(closing, pushed);
      BalancedScan(s[j + 1..], stack);
    }
  }

  lemma BracketsOnlySlice(s: string, i: int, j: int)
    requires BracketsOnly(s) && 0 <= i <= j <= |s|
    ensures BracketsOnly(s[i..j])
  {
    assert forall k :: 0 <= k < j - i ==> s[i..j][k] == s[i + k];
  }

  /** Starting from stack `w`, the text `t` empties it at `j`, where a closer
      for `x` stands, and the text after `j` is accepted on its own. */
  ghost predicate ReturnsAt(t: string, w: seq<char>, x: char, j: int)
    requires 0 <= j < |t|
  {
    Scan(t[..j], w) == Some([]) && OpenerOf(t[j]) == Some(x) && Scan(t[j + 1..], []) == Some([])
  }

  /** A return found after the first character, moved back onto the whole
      text. */
  lemma ReturnsLater(t: string, w: seq<char>, w2: seq<char>, x: char, j: int)
    requires 0 <= j < |t| - 1 && ReturnsAt(t[1..], w2, x, j)
    requires Scan(t[..j + 1], w) == Scan(t[1..][..j], w2)
    ensures ReturnsAt(t, w, x, j + 1)
  {
    assert t[1..][j + 1..] == t[j + 2..] && t[1..][j] == t[j + 1];
  }

  /** A bracket-only scan that empties a stack with `x` at the bottom first
      empties what lies above `x`, then closes `x`, then balances the rest. */
  lemma {:induction false} FirstReturn(t: string, x: char, w: seq<char>)
    requires BracketsOnly(t)
    requires Scan(t, [x] + w) == Some([])
    ensures exists j :: 0 <= j < |t| && ReturnsAt(t, w, x, j)
    decreases |t|
  {
    assert |t| > 0;
    var c := t[0];
    BracketsOnlySlice(t, 1, |t|);
    if IsOpener(c) {
      ScanOpen(t, [x] + w);
      assert [x] + w + [c] == [x] + (w + [c]);
      FirstReturn(t[1..], x, w + [c]);
      var j :| 0 <= j < |t[1..]| && ReturnsAt(t[1..], w + [c], x, j);
      var head := t[..j + 1];
      assert head[0] == c && head[1..] == t[1..][..j];
      ScanOpen(head, w);
      ReturnsLater(t, w, w + [c], x, j);
    } else if |w| == 0 {
      assert Top([x] + w) == Some(x) && Pop([x] + w) == [];
      assert t[..0] == [];
      assert ReturnsAt(t, w, x, 0);
    } else {
      assert Top([x] + w) == Top(w) && Pop([x] + w) == [x] + Pop(w);
      ScanClose(t, [x] + w);
      FirstReturn(t[1..], x, Pop(w));
      var j :| 0 <= j < |t[1..]| && ReturnsAt(t[1..], Pop(w), x, j);
      var head := t[..j + 1];
      assert head[0] == c && head[1..] == t[1..][..j];
      ScanClose(head, w);
      ReturnsLater(t, w, Pop(w), x, j);
    }
  }

  /** A bracket-only text the scan accepts is balanced. */
  lemma {:induction false} AcceptedIsBalanced(s: string)
    requires BracketsOnly(s)
    requires Scan(s, []) == Some([])
    ensures Balanced(s)
    decreases |s|
  {
    if |s| > 0 {
      assert IsOpener(s[0]);
      ScanOpen(s, []);
      assert [] + [s[0]] == [s[0]] + [];
      BracketsOnlySlice(s, 1, |s|);
      FirstReturn(s[1..], s[0], []);
      var j :| 0 <= j < |s[1..]| && ReturnsAt(s[1..], [], s[0], j);
      var inner := s[1..j + 1];
      var rest := s[j + 2..];
      assert s[1..][..j] == inner && s[1..][j + 1..] == rest && s[1..][j] == s[j + 1];
      BracketsOnlySlice(s, 1, j + 1);
      BracketsOnlySlice(s, j + 2, |s|);
      AcceptedIsBalanced(inner);
      AcceptedIsBalanced(rest);
      assert ClosesAt(s, j + 1);
    }
  }

  /** On text made only of the six bracket characters, the checker accepts
      exactly the well-nested texts. */
  lemma ValidIffBalanced(s: string)
    requires BracketsOnly(s)
    ensures Scan(s, []) == Some([]) <==> Balanced(s)
  {
    if Balanced(s) {
      BalancedScan(s, []);
    }
    if Scan(s, []) == Some([]) {
      AcceptedIsBalanced(s);
    }
  }

  /** Outside the bracket alphabet the checker is not a nesting test: a
      character that is neither an opener nor a key of `pairs` pops
      `undefined` from an empty stack, which equals the missing entry, so it
      is skipped; on a non-empty stack the popped opener differs from the
      missing entry and the scan fails. */
  lemma OtherCharacters(c: char, t: string, stack: seq<char>)
    requires !IsOpener(c) && OpenerOf(c).None?
    ensures |stack| == 0 ==> Scan([c] + t, stack) == Scan(t, stack)
    ensures |stack| > 0 ==> Scan([c] + t, stack) == None
  {
    assert ([c] + t)[0] == c && ([c] + t)[1..] == t;
  }

  /** Instances of the rule above with the letter `a`. */
  lemma OtherCharacterExamples()
    ensures Scan("a", []) == Some([])
    ensures Scan("a()", []) == Some([])
    ensures Scan("(a)", []) == None
  {
    assert "a()"[1..] == "()";
    assert "(a)"[1..] == "a)";
  }
}

=== FILE: problem_list.dfy ===
/** The problem-list state of the application shell (src/App.jsx): which
    problems the filters let through, in which order they are listed, which
    problem stays selected, and which problems count as solved. */
module ProblemList {
  import opened Wrappers
  import opened Text
  import opened Seqs
  import opened Grading

  // ---------------------------------------------------------------------
  // Filtering

  /** The filter state; `All` in a field means no restriction. */
  datatype Filters = Filters(query: string, difficulty: string, tag: string, category: string, sort: string)

  /** The option value that lifts a filter. */
  const All := "All"

  const InitialFilters := Filters("", All, All, All, "default")

  /** The four conditions a listed problem meets: the trimmed, lower-cased
      query is empty or occurs in the lower-cased title or summary; and the
      difficulty, tag and category filters are `All` or agree with the
      problem. */
  predicate Matches(p: Problem, f: Filters) {
    var query := Lower(Trim(f.query));
    && (|query| == 0 || Contains(Lower(p.title), query) || Contains(Lower(p.summary), query))
    && (f.difficulty == All || p.difficulty.Name() == f.difficulty)
    && (f.tag == All || f.tag in p.tags)
    && (f.category == All || p.category == f.category)
  }

  /** `filteredProblems`: the matching problems, in catalog order. */
  function FilterProblems(problems: seq<Problem>, f: Filters): (r: seq<Problem>)
    ensures IsSubsequence(r, problems)
    ensures forall p :: p in r <==> p in problems && Matches(p, f)
    ensures |r| <= |problems|
    decreases |problems|
  {
    if |problems| == 0 then []
    else
      var rest := FilterProblems(problems[1..], f);
      assert forall p :: p in problems <==> p == problems[0] || p in problems[1..];
      if Matches(problems[0], f) then
        assert ([problems[0]] + rest)[1..] == rest;
        [problems[0]] + rest
      else
        SubsequenceSkip(rest, problems);
        rest
  }

  /** The initial filters let every problem through. */
  lemma InitialFiltersKeepAll(problems: seq<Problem>)
    ensures FilterProblems(problems, InitialFilters) == problems
  {
    forall i | 0 <= i < |problems| ensures Matches(problems[i], InitialFilters) {
      InitialFiltersMatch(problems[i]);
    }
    KeepAllMatching(problems, InitialFilters);
  }

  /** A filter every problem matches keeps the list as it is. */
  lemma {:induction false} KeepAllMatching(problems: seq<Problem>, f: Filters)
    requires forall i :: 0 <= i < |problems| ==> Matches(problems[i], f)
    ensures FilterProblems(problems, f) == problems
    decreases |problems|
  {
    if |problems| > 0 {
      var tail := problems[1..];
      assert forall i :: 0 <= i < |tail| ==> tail[i] == problems[i + 1];
      KeepAllMatching(tail, f);
      KeepHead(problems, f);
      assert problems == [problems[0]] + tail;
    }
  }

  /** A matching first problem heads the filtered list. */
  lemma KeepHead(problems: seq<Problem>, f: Filters)
    requires |problems| > 0 && Matches(problems[0], f)
    ensures FilterProblems(problems, f) == [problems[0]] + FilterProblems(problems[1..], f)
  {
  }

  lemma InitialFiltersMatch(p: Problem)
    ensures Matches(p, InitialFilters)
  {
    var f := Filters("", All, All, All, "default");
    assert f == InitialFilters;
    assert Matches(p, f) by {
      assert |Trim("")| == 0;
    }
  }

  // ---------------------------------------------------------------------
  // Ordering

  /** `DIFFICULTY_ORDER`. */
  function DifficultyRank(d: Difficulty): int {
    match d
    case Easy => 0
    case Medium => 1
    case Hard => 2
  }

  /** `problemOrder.get(id) ?? 0`: the map is filled in catalog order, so a
      repeated id keeps its last position; an unknown id counts as 0. */
  function CatalogIndex(catalog: seq<Problem>, id: string): (r: nat)
    ensures forall i :: 0 <= i < |catalog| && catalog[i].id == id ==> i <= r < |catalog| && catalog[r].id == id
    ensures (forall i :: 0 <= i < |catalog| ==> catalog[i].id != id) ==> r == 0
    decreases |catalog|
  {
    if |catalog| == 0 then 0
    else if catalog[|catalog| - 1].id == id then |catalog| - 1
    else CatalogIndex(catalog[..|catalog| - 1], id)
  }

  predicate DistinctIds(catalog: seq<Problem>) {
    forall i, j :: 0 <= i < j < |catalog| ==> catalog[i].id != catalog[j].id
  }

  /** With distinct ids, a problem's order is its catalog position. */
  lemma CatalogIndexOfMember(catalog: seq<Problem>, i: nat)
    requires DistinctIds(catalog) && i < |catalog|
    ensures CatalogIndex(catalog, catalog[i].id) == i
  {
  }

  /** A lexicographic sort key. */
  datatype Key = Key(primary: int, secondary: int)

  predicate KeyLe(a: Key, b: Key) {
    a.primary < b.primary || (a.primary == b.primary && a.secondary <= b.secondary)
  }

  /** The comparators of `sortedProblems`: the chosen key first, then the
      catalog position. Difficulty ascends or descends by `DIFFICULTY_ORDER`;
      titles use `titleRank`, which stands for the host's Japanese collation
      (`localeCompare`). */
  function SortKey(catalog: seq<Problem>, mode: string, titleRank: string -> int, p: Problem): Key {
    var order := CatalogIndex(catalog, p.id);
    if mode == "difficulty-asc" then Key(DifficultyRank(p.difficulty), order)
    else if mode == "difficulty-desc" then Key(-DifficultyRank(p.difficulty), order)
    else if mode == "title-asc" then Key(titleRank(p.title), order)
    else Key(-titleRank(p.title), order)
  }

  predicate SortedBy(s: seq<Problem>, key: Problem -> Key) {
    forall i, j :: 0 <= i < j < |s| ==> KeyLe(key(s[i]), key(s[j]))
  }

  /** Insertion before the first element with a strictly greater key, so that
      equal keys keep their arrival order. */
  function InsertByKey(sorted: seq<Problem>, p: Problem, key: Problem -> Key): (r: seq<Problem>)
    requires SortedBy(sorted, key)
    ensures SortedBy(r, key)
    ensures multiset(r) == multiset(sorted) + multiset{p}
    decreases |sorted|
  {
    if |sorted| == 0 then [p]
    else if !KeyLe(key(sorted[0]), key(p)) then
      InsertInFront(sorted, p, key);
      [p] + sorted
    else
      var rest := InsertByKey(sorted[1..], p, key);
      InsertBehindHead(sorted, p, key, rest);
      [sorted[0]] + rest
  }

  /** An element with a key below the head's goes in front. */
  lemma InsertInFront(sorted: seq<Problem>, p: Problem, key: Problem -> Key)
    requires |sorted| > 0 && SortedBy(sorted, key) && !KeyLe(key(sorted[0]), key(p))
    ensures SortedBy([p] + sorted, key)
    ensures multiset([p] + sorted) == multiset(sorted) + multiset{p}
  {
    var r := [p] + sorted;
    assert forall j :: 0 <= j < |sorted| ==> KeyLe(key(p), key(sorted[j]));
    assert forall j :: 1 <= j < |r| ==> r[j] == sorted[j - 1];
  }

  /** The head stays in front of the insertion into the tail. */
  lemma InsertBehindHead(sorted: seq<Problem>, p: Problem, key: Problem -> Key, rest: seq<Problem>)
    requires |sorted| > 0 && SortedBy(sorted, key) && KeyLe(key(sorted[0]), key(p))
    requires SortedBy(rest, key) && multiset(rest) == multiset(sorted[1..]) + multiset{p}
    ensures SortedBy([sorted[0]] + rest, key)
    ensures multiset([sorted[0]] + rest) == multiset(sorted) + multiset{p}
  {
    var h := sorted[0];
    var tail := sorted[1..];
    assert sorted == [h] + tail;
    assert multiset(sorted) == multiset{h} + multiset(tail);
    forall k | 0 <= k < |rest|
      ensures KeyLe(key(h), key(rest[k]))
    {
      assert rest[k] in multiset(rest);
      if rest[k] != p {
        assert rest[k] in multiset(tail);
        var m :| 0 <= m < |tail| && tail[m] == rest[k];
        assert tail[m] == sorted[m + 1];
      }
    }
    var r := [h] + rest;
    assert forall k :: 1 <= k < |r| ==> r[k] == rest[k - 1];
    assert multiset(r) == multiset{h} + multiset(rest);
  }

  /** A stable sort by `key`: each element is inserted after the earlier
      ones with an equal key. */
  function SortByKey(items: seq<Problem>, key: Problem -> Key): (r: seq<Problem>)
    ensures SortedBy(r, key)
    ensures multiset(r) == multiset(items)
    decreases |items|
  {
    if |items| == 0 then []
    else
      var init := items[..|items| - 1];
      assert items == init + [items[|items| - 1]];
      InsertByKey(SortByKey(init, key), items[|items| - 1], key)
  }

  /** `sortedProblems`: the filtered list as it is for `default` and for an
      unknown mode; otherwise a rearrangement of it ordered by the mode's key
      with catalog position as tie-break. */
  function SortProblems(catalog: seq<Problem>, filtered: seq<Problem>, mode: string, titleRank: string -> int)
    : (r: seq<Problem>)
    ensures multiset(r) == multiset(filtered)
    ensures mode !in {"difficulty-asc", "difficulty-desc", "title-asc", "title-desc"} ==> r == filtered
    ensures mode in {"difficulty-asc", "difficulty-desc", "title-asc", "title-desc"} ==>
              SortedBy(r, p => SortKey(catalog, mode, titleRank, p))
  {
    if mode in {"difficulty-asc", "difficulty-desc", "title-asc", "title-desc"} then
      SortByKey(filtered, p => SortKey(catalog, mode, titleRank, p))
    else filtered
  }

  /** `a` may stand before `b` under a difficulty ordering: its difficulty
      comes first in the mode's direction, and a tie is broken by catalog
      position. */
  predicate DifficultyPairOrdered(catalog: seq<Problem>, mode: string, a: Problem, b: Problem) {
    (if mode == "difficulty-asc" then DifficultyRank(a.difficulty) <= DifficultyRank(b.difficulty)
     else DifficultyRank(a.difficulty) >= DifficultyRank(b.difficulty)) &&
    (a.difficulty == b.difficulty ==> CatalogIndex(catalog, a.id) < CatalogIndex(catalog, b.id))
  }

  /** Over a catalog with distinct ids, the difficulty orderings are strict:
      equal difficulty is decided by catalog position, so no two listed
      problems tie. */
  lemma DifficultyOrderStrict(catalog: seq<Problem>, filtered: seq<Problem>, mode: string, titleRank: string -> int)
    requires DistinctIds(catalog)
    requires mode == "difficulty-asc" || mode == "difficulty-desc"
    requires Distinct(filtered) && forall p :: p in filtered ==> p in catalog
    ensures var r := SortProblems(catalog, filtered, mode, titleRank);
            forall i, j :: 0 <= i < j < |r| ==> DifficultyPairOrdered(catalog, mode, r[i], r[j])
  {
    var r := SortProblems(catalog, filtered, mode, titleRank);
    var key := p => SortKey(catalog, mode, titleRank, p);
    assert SortedBy(r, key);
    assert Distinct(r) by {
      DistinctPermutation(filtered, r);
    }
    forall i, j | 0 <= i < j < |r|
      ensures DifficultyPairOrdered(catalog, mode, r[i], r[j])
    {
      assert KeyLe(key(r[i]), key(r[j]));
      if r[i].difficulty == r[j].difficulty {
        assert r[i] in multiset(filtered) && r[j] in multiset(filtered);
        CatalogIndexInjective(catalog, r[i], r[j]);
      }
    }
  }

  /** Problems of a distinct-id catalog have distinct catalog positions. */
  lemma CatalogIndexInjective(catalog: seq<Problem>, a: Problem, b: Problem)
    requires DistinctIds(catalog) && a in catalog && b in catalog && a != b
    ensures CatalogIndex(catalog, a.id) != CatalogIndex(catalog, b.id)
  {
    var i :| 0 <= i < |catalog| && catalog[i] == a;
    var j :| 0 <= j < |catalog| && catalog[j] == b;
    CatalogIndexOfMember(catalog, i);
    CatalogIndexOfMember(catalog, j);
  }

  // ---------------------------------------------------------------------
  // Selection

  /** The selection-fallback effect: a missing (or empty) selection is left
      alone; a selection still listed is kept; otherwise the first listed
      problem is selected, or nothing when the list is empty. */
  function FallbackSelection(selected: Option<string>, listed: seq<Problem>): (r: Option<string>)
    ensures selected.None? || selected.value == "" ==> r == selected
    ensures selected.Some? && (exists i :: 0 <= i < |listed| && listed[i].id == selected.value) ==> r == selected
    ensures r != selected ==> (if |listed| > 0 then r == Some(listed[0].id) else r.None?)
    ensures r.Some? && r.value != "" ==> exists i :: 0 <= i < |listed| && listed[i].id == r.value
  {
    if selected.None? || selected.value == "" then selected
    else if exists i :: 0 <= i < |listed| && listed[i].id == selected.value then selected
    else if |listed| > 0 then Some(listed[0].id)
    else None
  }

  /** Running the effect again changes nothing. */
  lemma FallbackSelectionIdempotent(selected: Option<string>, listed: seq<Problem>)
    ensures FallbackSelection(FallbackSelection(selected, listed), listed) == FallbackSelection(selected, listed)
  {
  }

  // ---------------------------------------------------------------------
  // Solved problems

  /** What `resultMap` records for a problem: nothing yet, `null` after a
      reset, or the outcome of the last run. */
  type ResultMap = map<string, Option<GradingOutcome>>

  /** When `id` counts as solved: its recorded outcome passed, or it has no
      recorded outcome and was solved before. */
  predicate Solved(persisted: set<string>, results: ResultMap, id: string) {
    if id in results && results[id].Some? then results[id].value.summary.status == Pass
    else id in persisted
  }

  /** `solvedIds`: start from the persisted set and let every recorded
      outcome add (pass) or remove (anything else) its id; `null` entries
      change nothing. The entries are visited in an arbitrary order. */
  method SolvedIds(persisted: set<string>, results: ResultMap) returns (solved: set<string>)
    ensures forall id :: id in solved <==> Solved(persisted, results, id)
  {
    solved := persisted;
    var pending := results.Keys;
    while pending != {}
      invariant pending <= results.Keys
      invariant forall id :: id in solved <==>
                  if id in results && id !in pending && results[id].Some? then results[id].value.summary.status == Pass
                  else id in persisted
      decreases pending
    {
      var id :| id in pending;
      var result := results[id];
      if result.Some? && result.value.summary.status == Pass {
        solved := solved + {id};
      } else if result.Some? {
        solved := solved - {id};
      }
      pending := pending - {id};
    }
  }

  /** The state `handleRun` and `handleReset` update. */
  datatype ListState = ListState(results: ResultMap, persisted: set<string>)

  /** `handleRun`: record the outcome and add the id to the persisted set
      when the run passed, remove it otherwise. */
  function Run(s: ListState, id: string, outcome: GradingOutcome): (r: ListState)
    ensures r.results == s.results[id := Some(outcome)]
    ensures id in r.persisted <==> outcome.summary.status == Pass
    ensures forall other :: other != id ==> (other in r.persisted <==> other in s.persisted)
  {
    var persisted := if outcome.summary.status == Pass then s.persisted + {id} else s.persisted - {id};
    ListState(s.results[id := Some(outcome)], persisted)
  }

  /** `handleReset`: record `null` and drop the id from the persisted set;
      the set is handed back as it was when the id is absent. */
  function Reset(s: ListState, id: string): (r: ListState)
    ensures r.results == s.results[id := None]
    ensures r.persisted == s.persisted - {id}
    ensures id !in s.persisted ==> r.persisted == s.persisted
  {
    var persisted := if id !in s.persisted then s.persisted else s.persisted - {id};
    ListState(s.results[id := None], persisted)
  }

  /** After a run the problem is solved exactly when the run passed, and no
      other problem changes. */
  lemma RunDecidesSolved(s: ListState, id: string, outcome: GradingOutcome)
    ensures var t := Run(s, id, outcome);
            && (Solved(t.persisted, t.results, id) <==> outcome.summary.status == Pass)
            && forall other :: other != id ==>
                 (Solved(t.persisted, t.results, other) <==> Solved(s.persisted, s.results, other))
  {
  }

  /** After a reset the problem is unsolved, and no other problem changes. */
  lemma ResetUnsolves(s: ListState, id: string)
    ensures var t := Reset(s, id);
            && !Solved(t.persisted, t.results, id)
            && forall other :: other != id ==>
                 (Solved(t.persisted, t.results, other) <==> Solved(s.persisted, s.results, other))
  {
  }
}

=== FILE: runner.dfy ===
/** The grading core (src/lib/testRunner.js): compiling the learner's text
    through an abstract evaluator, running every test case of a problem, and
    running the entry point once on caller-supplied arguments. */
module TestRunner {
  import opened Wrappers
  import opened Text
  import opened JsValues
  import opened DeepEquality
  import opened Formatting
  import opened Grading
  import Catalog

  // ---------------------------------------------------------------------
  // Compilation

  /** What evaluating the wrapped source text produces: it throws with a
      message, or it returns the binding of the entry-point name when that is
      a function (`Some`) and `undefined` otherwise (`None`). The evaluation
      itself (`new Function(...)()`) is the host's and stays abstract. */
  datatype Evaluation = Threw(message: string) | Returned(entry: Option<Solver>)

  const StrictHeader := "\"use strict\";"
  const CompileErrorPrefix := "コードを評価できません: "

  /** The program text handed to the evaluator: strict mode, the learner's
      code, then a line returning the entry point if it is a function. */
  function WrappedSource(source: string, functionName: string): (r: string)
    ensures |r| >= |StrictHeader| && r[..|StrictHeader|] == StrictHeader
  {
    Join([StrictHeader, source,
          "return typeof " + functionName + " === \"function\" ? " + functionName + " : undefined;"], "\n")
  }

  function MissingFunctionMessage(functionName: string): string {
    "関数 " + functionName + " が見つかりません。関数名が課題の指定と一致しているか確認してください。"
  }

  /** `compileUserCode` (and `buildSolver`, which only forwards the problem's
      function name): a solver when the evaluation yields a function; otherwise
      a message made of the fixed prefix and the cause, which names the entry
      point when it is missing. */
  function CompileUserCode(source: string, functionName: string, evaluate: string -> Evaluation)
    : (r: Result<Solver, string>)
    ensures r.Success? <==>
              evaluate(WrappedSource(source, functionName)).Returned? &&
              evaluate(WrappedSource(source, functionName)).entry.Some?
    ensures r.Success? ==> r.value == evaluate(WrappedSource(source, functionName)).entry.value
    ensures r.Failure? ==>
              |r.error| >= |CompileErrorPrefix| && r.error[..|CompileErrorPrefix|] == CompileErrorPrefix
    ensures evaluate(WrappedSource(source, functionName)).Threw? ==>
              r == Failure(CompileErrorPrefix + evaluate(WrappedSource(source, functionName)).message)
    ensures evaluate(WrappedSource(source, functionName)) == Returned(None) ==>
              r == Failure(CompileErrorPrefix + MissingFunctionMessage(functionName))
    ensures evaluate(WrappedSource(source, functionName)) == Returned(None) ==>
              r.Failure? && Contains(r.error, functionName)
  {
    match evaluate(WrappedSource(source, functionName))
    case Threw(m) => Failure(CompileErrorPrefix + m)
    case Returned(None) =>
      var m := MissingFunctionMessage(functionName);
      var e := CompileErrorPrefix + m;
      assert OccursAt(e, functionName, |CompileErrorPrefix| + |"関数 "|);
      Failure(e)
    case Returned(Some(f)) => Result.Success(f)
  }

  // ---------------------------------------------------------------------
  // One test case

  const CustomCheckPassed := "カスタム検証を通過"
  const CustomCheckRequired := "assert 関数で true を返す必要があります"

  /** The arguments a case is called with: `args` when it is an array, no
      arguments otherwise. */
  function CallArgs(test: TestCase): seq<Value> {
    if test.args.Arr? then test.args.elems else []
  }

  /** One iteration of the loop in `runTests`: call the solver with the case's
      arguments; a throw (from the solver or from a custom `assert`) makes an
      error item carrying the message and the stack (empty when absent); a
      custom check passes on a truthy answer and reports a fixed expected
      text; otherwise the output is compared with the expected value and both
      are rendered. */
  function RunCase(solver: Solver, test: TestCase, host: Host): (item: Item)
    ensures item.description == test.description
    ensures item.args == FormatAll(host, CallArgs(test))
    ensures solver(CallArgs(test)).Failure? ==>
              item.verdict == Raised(solver(CallArgs(test)).error.message,
                                     solver(CallArgs(test)).error.stack.GetOr(""))
    ensures solver(CallArgs(test)).Success? && test.check.Expect? ==>
              var out := solver(CallArgs(test)).value;
              item.verdict == Judged(DeepEqual(out, test.check.expected),
                                     FormatValue(host, test.check.expected),
                                     FormatValue(host, out))
    ensures solver(CallArgs(test)).Success? && test.check.Assert? ==>
              var out := solver(CallArgs(test)).value;
              var answer := test.check.pred(out);
              (answer.Failure? ==> item.verdict == Raised(answer.error.message, answer.error.stack.GetOr(""))) &&
              (answer.Success? ==>
                 (item.verdict ==
                    Judged(Truthy(answer.value),
                           if Truthy(answer.value) then CustomCheckPassed else CustomCheckRequired,
                           FormatValue(host, out))))
  {
    var raw := CallArgs(test);
    var shown := FormatAll(host, raw);
    match solver(raw)
    case Failure(e) => Item(test.description, shown, Raised(e.message, e.stack.GetOr("")))
    case Success(output) =>
      match test.check
      case Expect(expected) =>
        Item(test.description, shown,
             Judged(DeepEqual(output, expected), FormatValue(host, expected), FormatValue(host, output)))
      case Assert(pred) =>
        match pred(output)
        case Failure(e) => Item(test.description, shown, Raised(e.message, e.stack.GetOr("")))
        case Success(answer) =>
          var passed := Truthy(answer);
          Item(test.description, shown,
               Judged(passed, if passed then CustomCheckPassed else CustomCheckRequired,
                      FormatValue(host, output)))
  }

  // ---------------------------------------------------------------------
  // Aggregation

  function CountPassed(items: seq<Item>): (n: nat)
    ensures n <= |items|
    decreases |items|
  {
    if |items| == 0 then 0
    else CountPassed(items[..|items| - 1]) + (if items[|items| - 1].Passed() then 1 else 0)
  }

  /** The pass count reaches the number of items exactly when every item
      passed. */
  lemma {:induction false} CountPassedAll(items: seq<Item>)
    ensures CountPassed(items) == |items| <==> forall i :: 0 <= i < |items| ==> items[i].Passed()
    decreases |items|
  {
    if |items| > 0 {
      var init := items[..|items| - 1];
      CountPassedAll(init);
      assert forall i :: 0 <= i < |init| ==> init[i] == items[i];
    }
  }

  const AllPassedMessage := "すべてのテストを通過しました 🎉"

  function PartialMessage(passCount: nat, total: nat): string {
    Decimal(passCount) + " / " + Decimal(total) + " 件のテストに合格しました"
  }

  /** `runTests`. A solver that cannot be built yields a compile-error
      summary with the compiler's message and no items. Otherwise there is
      exactly one item per test, in declared order, the item at each position
      being the case run of the test at that position (a throwing case does
      not stop later ones); the status is
      `pass` exactly when every item passed, and a failing run reports how
      many of the tests passed. */
  method RunTests(problem: Problem, userCode: string, evaluate: string -> Evaluation, host: Host,
                  elapsedMs: string)
    returns (r: GradingOutcome)
    ensures var c := CompileUserCode(userCode, problem.functionName, evaluate);
            && (c.Failure? ==> r == GradingOutcome(Summary(CompileError, c.error, Some(elapsedMs)), []))
            && (c.Success? ==>
                  && |r.items| == |problem.tests|
                  && (forall i :: 0 <= i < |problem.tests| ==>
                        r.items[i] == RunCase(c.value, problem.tests[i], host))
                  && r.summary.durationMs == Some(elapsedMs)
                  && (r.summary.status == Pass <==> forall i :: 0 <= i < |r.items| ==> r.items[i].Passed())
                  && (r.summary.status == Pass ==> r.summary.message == AllPassedMessage)
                  && (r.summary.status != Pass ==>
                        r.summary.status == Fail &&
                        r.summary.message == PartialMessage(CountPassed(r.items), |problem.tests|)))
  {
    var tests := problem.tests;
    var compiled := CompileUserCode(userCode, problem.functionName, evaluate);
    if compiled.Failure? {
      return GradingOutcome(Summary(CompileError, compiled.error, Some(elapsedMs)), []);
    }
    var solver := compiled.value;
    var results, passCount := RunEach(tests, t => RunCase(solver, t, host));
    CountPassedAll(results);
    var status := if passCount == |tests| then Pass else Fail;
    var message := if status == Pass then AllPassedMessage else PartialMessage(passCount, |tests|);
    r := GradingOutcome(Summary(status, message, Some(elapsedMs)), results);
  }

  /** The loop of `runTests`, with the per-case step `run` abstracted: one
      item per test in declared order, the item at each position being `run`
      applied to the test at that position, and the number of them that
      passed. */
  method RunEach(tests: seq<TestCase>, run: TestCase -> Item) returns (results: seq<Item>, passCount: nat)
    ensures |results| == |tests|
    ensures forall j :: 0 <= j < |tests| ==> results[j] == run(tests[j])
    ensures passCount == CountPassed(results)
  {
    results := [];
    passCount := 0;
    for i := 0 to |tests|
      invariant |results| == i
      invariant forall j :: 0 <= j < i ==> results[j] == run(tests[j])
      invariant passCount == CountPassed(results)
    {
      var item := run(tests[i]);
      assert (results + [item])[..|results|] == results;
      if item.Passed() {
        passCount := passCount + 1;
      }
      results := results + [item];
    }
  }

  // ---------------------------------------------------------------------
  // Ad-hoc execution

  /** `runCustomExecution`: exactly one of a compile error (with the
      compiler's message), a success (with the value and its rendering) or a
      runtime error (with the message and the stack, empty when absent). */
  function RunCustomExecution(problem: Problem, userCode: string, args: seq<Value>,
                              evaluate: string -> Evaluation, host: Host, elapsedMs: string)
    : (r: CustomOutcome)
    ensures var c := CompileUserCode(userCode, problem.functionName, evaluate);
            && (r.AdhocCompileError? <==> c.Failure?)
            && (c.Failure? ==> r.message == c.error)
            && (c.Success? ==>
                  && (r.AdhocSuccess? <==> c.value(args).Success?)
                  && (r.AdhocSuccess? ==> r.value == c.value(args).value && r.formatted == FormatValue(host, r.value))
                  && (r.AdhocRuntimeError? ==>
                        (r.message == c.value(args).error.message &&
                         r.stack == c.value(args).error.stack.GetOr(""))))
  {
    match CompileUserCode(userCode, problem.functionName, evaluate)
    case Failure(m) => AdhocCompileError(m, elapsedMs)
    case Success(solver) =>
      match solver(args)
      case Success(value) => AdhocSuccess(value, FormatValue(host, value), elapsedMs)
      case Failure(e) => AdhocRuntimeError(e.message, e.stack.GetOr(""), elapsedMs)
  }

  /** The two executors agree: running a case's arguments ad hoc succeeds
      exactly when the case does not raise from the solver, and then shows
      the same rendering the case reports as received. */
  lemma CustomRunMatchesTestCase(problem: Problem, userCode: string, test: TestCase,
                                 evaluate: string -> Evaluation, host: Host, elapsedMs: string)
    requires test.check.Expect?
    requires CompileUserCode(userCode, problem.functionName, evaluate).Success?
    ensures var solver := CompileUserCode(userCode, problem.functionName, evaluate).value;
            var custom := RunCustomExecution(problem, userCode, CallArgs(test), evaluate, host, elapsedMs);
            var item := RunCase(solver, test, host);
            && (custom.AdhocSuccess? <==> item.verdict.Judged?)
            && (custom.AdhocSuccess? ==> custom.formatted == item.verdict.received)
            && (custom.AdhocRuntimeError? ==> custom.message == item.verdict.error && custom.stack == item.verdict.stack)
  {
  }

  // ---------------------------------------------------------------------
  // The documented scenarios

  /** A problem built from samples with a reference solution is consistent
      with that solution: submitting the solution itself passes every
      generated case whose answer is a value a program can hold. */
  lemma ReferenceSolutionPasses(category: string, def: Catalog.Definition, host: Host, i: nat)
    requires def.samples.Some? && def.solution.Some? && i < |def.samples.value|
    requires WellFormed(def.solution.value(def.samples.value[i].args))
    ensures var p := Catalog.CreateProblem(category, def);
            var solver: Solver := (args: seq<Value>) => Result.Success(def.solution.value(args));
            RunCase(solver, p.tests[i], host).Passed()
  {
    var p := Catalog.CreateProblem(category, def);
    var answer := def.solution.value(def.samples.value[i].args);
    assert CallArgs(p.tests[i]) == def.samples.value[i].args;
    EqualReflexive(answer, OwnProperty);
  }

  /** The reversing solver for `reverseString` passes the `garden` case. */
  lemma ReverseStringPasses(host: Host)
    ensures var solver: Solver := (args: seq<Value>) =>
              if |args| > 0 && args[0].Str? then Result.Success(Str(Reverse(args[0].s))) else Result.Success(Undefined);
            var test := TestCase("基本ケース", Arr([Str("garden")]), Expect(Str("nedrag")));
            RunCase(solver, test, host).Passed()
  {
    assert Reverse("garden") == "nedrag";
  }

  function Reverse(s: string): (r: string)
    ensures |r| == |s|
    ensures forall i :: 0 <= i < |s| ==> r[i] == s[|s| - 1 - i]
  {
    seq(|s|, i requires 0 <= i < |s| => s[|s| - 1 - i])
  }

  /** A solver that throws `boom` yields an error item carrying `boom`, which
      does not count as passed. */
  lemma ThrowingSolverErrors(host: Host, test: TestCase)
    ensures var solver: Solver := (args: seq<Value>) => Failure(Thrown("boom", None));
            var item := RunCase(solver, test, host);
            item.verdict == Raised("boom", "") && !item.Passed() && item.Outcome() == "error"
  {
  }
}

=== FILE: seqs.dfy ===
/** Small facts about sequences used across the model. */
module Seqs {

  predicate Distinct<T(==)>(s: seq<T>) {
    forall i, j :: 0 <= i < j < |s| ==> s[i] != s[j]
  }

  function Elements<T>(s: seq<T>): set<T> {
    set x | x in s
  }

  lemma {:induction false} DistinctCard<T>(s: seq<T>)
    requires Distinct(s)
    ensures |Elements(s)| == |s|
    decreases |s|
  {
    if |s| > 0 {
      assert Elements(s) == {s[0]} + Elements(s[1..]);
      assert s[0] !in Elements(s[1..]) by {
        forall j | 0 <= j < |s[1..]| ensures s[1..][j] != s[0] {
          assert s[1..][j] == s[j + 1];
        }
      }
      DistinctCard(s[1..]);
    }
  }

  /** Two duplicate-free sequences of the same length, one contained in the
      other, have the same elements. */
  lemma SameElements<T>(s: seq<T>, t: seq<T>)
    requires Distinct(s) && Distinct(t) && |s| == |t|
    requires forall x :: x in s ==> x in t
    ensures forall y :: y in t ==> y in s
  {
    var a, b := Elements(s), Elements(t);
    DistinctCard(s);
    DistinctCard(t);
    assert a <= b;
    assert b == a + (b - a);
    assert |b| == |a| + |b - a|;
    assert b - a == {};
    forall y | y in t ensures y in s {
      assert y in b;
      assert y in a;
    }
  }

  /** In a duplicate-free sequence every value occurs at most once. */
  lemma {:induction false} DistinctMultiplicity<T>(s: seq<T>, x: T)
    requires Distinct(s)
    ensures multiset(s)[x] <= 1
    decreases |s|
  {
    if |s| > 0 {
      assert s == [s[0]] + s[1..];
      assert Distinct(s[1..]) by {
        forall i, j | 0 <= i < j < |s[1..]| ensures s[1..][i] != s[1..][j] {
          assert s[1..][i] == s[i + 1] && s[1..][j] == s[j + 1];
        }
      }
      DistinctMultiplicity(s[1..], x);
      if s[0] == x {
        assert x !in s[1..] by {
          forall j | 0 <= j < |s[1..]| ensures s[1..][j] != x {
            assert s[1..][j] == s[j + 1];
          }
        }
      }
    }
  }

  /** A value at two positions occurs at least twice. */
  lemma RepeatedMultiplicity<T>(s: seq<T>, i: nat, j: nat)
    requires i < j < |s| && s[i] == s[j]
    ensures multiset(s)[s[i]] >= 2
  {
    assert s == s[..j] + s[j..];
    assert s[..j][i] == s[i] && s[j..][0] == s[j];
    assert s[i] in multiset(s[..j]) && s[j] in multiset(s[j..]);
  }

  /** A rearrangement of a duplicate-free sequence is duplicate-free. */
  lemma DistinctPermutation<T>(s: seq<T>, t: seq<T>)
    requires Distinct(s) && multiset(s) == multiset(t)
    ensures Distinct(t)
  {
    forall i, j | 0 <= i < j < |t| ensures t[i] != t[j] {
      if t[i] == t[j] {
        RepeatedMultiplicity(t, i, j);
        DistinctMultiplicity(s, t[i]);
        assert false;
      }
    }
  }

  /** `xs` can be obtained from `ys` by deleting elements. */
  predicate IsSubsequence<T(==)>(xs: seq<T>, ys: seq<T>)
    decreases |ys|
  {
    if |xs| == 0 then true
    else if |ys| == 0 then false
    else if xs[0] == ys[0] then IsSubsequence(xs[1..], ys[1..])
    else IsSubsequence(xs, ys[1..])
  }

  /** Dropping the head of the longer sequence keeps a subsequence. */
  lemma {:induction false} SubsequenceSkip<T>(xs: seq<T>, ys: seq<T>)
    requires |ys| > 0 && IsSubsequence(xs, ys[1..])
    ensures IsSubsequence(xs, ys)
    decreases |ys|, 0
  {
    if |xs| > 0 && xs[0] == ys[0] {
      SubsequenceTail(xs, ys[1..]);
    }
  }

  /** Dropping the head of the shorter sequence keeps a subsequence. */
  lemma {:induction false} SubsequenceTail<T>(xs: seq<T>, ys: seq<T>)
    requires |xs| > 0 && IsSubsequence(xs, ys)
    ensures IsSubsequence(xs[1..], ys)
    decreases |ys|, 1
  {
    if xs[0] != ys[0] {
      SubsequenceTail(xs, ys[1..]);
    }
    SubsequenceSkip(xs[1..], ys);
  }

  function Flatten<T>(xss: seq<seq<T>>): seq<T>
    decreases |xss|
  {
    if |xss| == 0 then [] else xss[0] + Flatten(xss[1..])
  }

  lemma {:induction false} FlattenAppend<T>(a: seq<seq<T>>, b: seq<seq<T>>)
    ensures Flatten(a + b) == Flatten(a) + Flatten(b)
    decreases |a|
  {
    if |a| == 0 {
      assert a + b == b;
    } else {
      assert (a + b)[0] == a[0];
      assert (a + b)[1..] == a[1..] + b;
      FlattenAppend(a[1..], b);
    }
  }
}

=== FILE: sidebar.dfy ===
/** The filter and sort controls of the problem sidebar
    (src/components/ProblemSidebar.jsx): the chip lists, the toggle rule of
    the filter chips, the sort selector and the progress counter. */
module Sidebar {
  import opened Wrappers
  import opened Seqs
  import opened Grading
  import opened ProblemList

  // ---------------------------------------------------------------------
  // Chips

  datatype Chip = Chip(value: string, caption: string)

  const AllLabel := "すべて"

  /** `difficultyOptions`. */
  const DifficultyChips := [Chip(All, AllLabel), Chip("Easy", "Easy"), Chip("Medium", "Medium"), Chip("Hard", "Hard")]

  /** `sortOptions`. */
  const SortChips := [
    Chip("default", "推奨順"),
    Chip("difficulty-asc", "難易度(易→難)"),
    Chip("difficulty-desc", "難易度(難→易)"),
    Chip("title-asc", "タイトルA→Z"),
    Chip("title-desc", "タイトルZ→A")
  ]

  function ChipLabel(option: string): string {
    if option == All then AllLabel else option
  }

  /** `categoryChips` and `tagChips`: one chip per option, in order. */
  function Chips(options: seq<string>): (r: seq<Chip>)
    ensures |r| == |options|
    ensures forall i :: 0 <= i < |r| ==> r[i].value == options[i]
    ensures forall i :: 0 <= i < |r| ==> (r[i].caption == AllLabel <==> options[i] == All || options[i] == AllLabel)
    ensures forall i :: 0 <= i < |r| && options[i] != All ==> r[i].caption == options[i]
  {
    seq(|options|, i requires 0 <= i < |options| => Chip(options[i], ChipLabel(options[i])))
  }

  /** The chips a `FilterGroup` marks active: those whose value is the
      field's current value. */
  function ActiveChips(chips: seq<Chip>, current: string): (r: seq<nat>)
    ensures forall k :: 0 <= k < |r| ==> r[k] < |chips| && chips[r[k]].value == current
    ensures forall i :: 0 <= i < |chips| && chips[i].value == current ==> i in r
    decreases |chips|
  {
    if |chips| == 0 then []
    else
      var rest := ActiveChips(chips[..|chips| - 1], current);
      if chips[|chips| - 1].value == current then rest + [|chips| - 1] else rest
  }

  function Values(chips: seq<Chip>): (r: seq<string>)
    ensures |r| == |chips| && forall i :: 0 <= i < |r| ==> r[i] == chips[i].value
  {
    seq(|chips|, i requires 0 <= i < |chips| => chips[i].value)
  }

  /** Options without repeats light at most one chip. */
  lemma {:induction false} AtMostOneActive(chips: seq<Chip>, current: string)
    requires Distinct(Values(chips))
    ensures |ActiveChips(chips, current)| <= 1
    decreases |chips|
  {
    if |chips| > 0 {
      var init := chips[..|chips| - 1];
      assert Distinct(Values(init)) by {
        assert forall i :: 0 <= i < |init| ==> Values(init)[i] == Values(chips)[i];
      }
      if chips[|chips| - 1].value == current {
        assert forall i :: 0 <= i < |init| ==> Values(chips)[i] != Values(chips)[|chips| - 1];
        NoneActive(init, current);
      } else {
        AtMostOneActive(init, current);
      }
    }
  }

  /** No chip with the current value, no active chip. */
  lemma {:induction false} NoneActive(chips: seq<Chip>, current: string)
    requires forall i :: 0 <= i < |chips| ==> chips[i].value != current
    ensures ActiveChips(chips, current) == []
    decreases |chips|
  {
    if |chips| > 0 {
      NoneActive(chips[..|chips| - 1], current);
    }
  }

  /** Every difficulty a problem can have has its own chip, after `All`. */
  lemma DifficultyChipsCoverDifficulties(d: Difficulty)
    ensures DifficultyChips[0].value == All
    ensures exists i :: 1 <= i < |DifficultyChips| && DifficultyChips[i].value == d.Name()
    ensures Distinct(Values(DifficultyChips))
  {
    match d
    case Easy => assert DifficultyChips[1].value == d.Name();
    case Medium => assert DifficultyChips[2].value == d.Name();
    case Hard => assert DifficultyChips[3].value == d.Name();
  }

  /** The sort chips are the initial mode followed by the four orderings
      the list knows. */
  lemma SortChipsAreModes()
    ensures SortChips[0].value == InitialFilters.sort
    ensures forall i :: 1 <= i < |SortChips| ==>
              SortChips[i].value in {"difficulty-asc", "difficulty-desc", "title-asc", "title-desc"}
    ensures Distinct(Values(SortChips))
  {
  }

  // ---------------------------------------------------------------------
  // Filter changes

  datatype FilterField = DifficultyField | CategoryField | TagField

  function Get(f: Filters, field: FilterField): string {
    match field
    case DifficultyField => f.difficulty
    case CategoryField => f.category
    case TagField => f.tag
  }

  function Set(f: Filters, field: FilterField, value: string): (r: Filters)
    ensures Get(r, field) == value
    ensures forall other :: other != field ==> Get(r, other) == Get(f, other)
    ensures r.query == f.query && r.sort == f.sort
  {
    match field
    case DifficultyField => f.(difficulty := value)
    case CategoryField => f.(category := value)
    case TagField => f.(tag := value)
  }

  /** `handleFilterChange`: the filters to emit, `None` when nothing is
      emitted. Clicking the active chip clears the field to `All` (and does
      nothing when that chip is `All` itself); clicking another chip selects
      it. Only the clicked field changes, and an emitted state always differs
      from the current one. */
  function HandleFilterChange(f: Filters, field: FilterField, value: string): (r: Option<Filters>)
    ensures r.None? <==> Get(f, field) == value && value == All
    ensures r.Some? ==> r.value != f
    ensures r.Some? ==> Get(r.value, field) == (if Get(f, field) == value then All else value)
    ensures r.Some? ==> forall other :: other != field ==> Get(r.value, other) == Get(f, other)
    ensures r.Some? ==> r.value.query == f.query && r.value.sort == f.sort
  {
    if Get(f, field) == value then
      if value == All then None else Some(Set(f, field, All))
    else Some(Set(f, field, value))
  }

  /** Starting from an unrestricted field, clicking the same chip twice
      selects it and then restores the original filters. */
  lemma ToggleTwice(f: Filters, field: FilterField, value: string)
    requires Get(f, field) == All && value != All
    ensures var once := HandleFilterChange(f, field, value);
            && once.Some? && Get(once.value, field) == value
            && HandleFilterChange(once.value, field, value) == Some(f)
  {
    var once := Set(f, field, value);
    var twice := Set(once, field, All);
    match field
    case DifficultyField => assert twice == f;
    case CategoryField => assert twice == f;
    case TagField => assert twice == f;
  }

  /** `handleSortChange`: nothing for the current mode; otherwise only the
      mode changes. */
  function HandleSortChange(f: Filters, value: string): (r: Option<Filters>)
    ensures r.None? <==> f.sort == value
    ensures r.Some? ==> r.value.sort == value && r.value.query == f.query
    ensures r.Some? ==> forall field :: Get(r.value, field) == Get(f, field)
  {
    if f.sort == value then None else Some(f.(sort := value))
  }

  /** `handleQueryChange`: only the query changes. */
  function HandleQueryChange(f: Filters, query: string): (r: Filters)
    ensures r.query == query && r.sort == f.sort
    ensures forall field :: Get(r, field) == Get(f, field)
  {
    f.(query := query)
  }

  // ---------------------------------------------------------------------
  // Progress

  /** The `solvedIds` prop as it may arrive: a set, an array, or anything
      else. */
  datatype SolvedProp = SolvedSet(ids: set<string>) | SolvedArray(list: seq<string>) | OtherProp

  /** `solvedSet.size`: the set as given, the distinct entries of an array,
      and none otherwise. */
  function SolvedCount(solved: SolvedProp): (n: nat)
    ensures solved.SolvedSet? ==> n == |solved.ids|
    ensures solved.OtherProp? ==> n == 0
    ensures solved.SolvedArray? ==> n == |Elements(solved.list)|
    ensures solved.SolvedArray? ==> n <= |solved.list| && (|solved.list| > 0 ==> n > 0)
  {
    match solved
    case SolvedSet(ids) => |ids|
    case SolvedArray(list) =>
      ElementsBound(list);
      |Elements(list)|
    case OtherProp => 0
  }

  lemma {:induction false} ElementsBound<T>(s: seq<T>)
    ensures |Elements(s)| <= |s|
    ensures |s| > 0 ==> |Elements(s)| > 0
    decreases |s|
  {
    if |s| > 0 {
      assert Elements(s) == {s[0]} + Elements(s[1..]);
      ElementsBound(s[1..]);
    }
  }

  /** A duplicate-free array counts every entry. */
  lemma SolvedArrayCount(list: seq<string>)
    requires Distinct(list)
    ensures SolvedCount(SolvedArray(list)) == |list|
  {
    DistinctCard(list);
  }

  /** `total`: `totalCount` when it is a number, else the number of listed
      problems. */
  function Total(totalCount: Option<int>, problems: seq<Problem>): (n: int)
    ensures totalCount.Some? ==> n == totalCount.value
    ensures totalCount.None? ==> n == |problems|
  {
    totalCount.GetOr(|problems|)
  }
}

=== FILE: solutions.dfy ===
/** The integer reference solutions of the catalog (the `solution` functions
    in src/problems/index.js), which compute the expected value of every
    sample-derived test. Each is stated against the behaviour its problem
    text asks for. */
module Solutions {
  import opened Seqs

  // ---------------------------------------------------------------------
  // Shared definitions

  predicate Ascending(s: seq<int>) {
    forall i, j :: 0 <= i < j < |s| ==> s[i] <= s[j]
  }

  function Sum(s: seq<int>): int
    decreases |s|
  {
    if |s| == 0 then 0 else Sum(s[..|s| - 1]) + s[|s| - 1]
  }

  lemma {:induction false} SumFront(s: seq<int>)
    requires |s| > 0
    ensures Sum(s) == s[0] + Sum(s[1..])
    decreases |s|
  {
    if |s| > 1 {
      SumFront(s[..|s| - 1]);
      assert s[..|s| - 1][1..] == s[1..][..|s| - 2];
    }
  }

  /** JavaScript's `%`: the remainder takes the sign of the dividend. */
  function JsRem(a: int, n: int): (r: int)
    requires n > 0
    ensures -n < r < n
    ensures a >= 0 ==> r >= 0
  {
    if a >= 0 then a % n else -((-a) % n)
  }

  lemma MulNonNegative(a: int, b: int)
    requires a >= 0 && b >= 0
    ensures a * b >= 0
  {
  }

  /** The remainder is the `r` of any decomposition `x == q * n + r` with
      `0 <= r < n`. */
  lemma ModUnique(x: int, n: int, q: int, r: int)
    requires n > 0 && 0 <= r < n && x == q * n + r
    ensures x % n == r
  {
    var t := q - x / n;
    assert x == (x / n) * n + x % n;
    assert t * n == x % n - r;
    if t >= 1 {
      MulNonNegative(t - 1, n);
      assert false;
    } else if t <= -1 {
      MulNonNegative(-t - 1, n);
      assert false;
    }
  }

  lemma ModAddMultiple(x: int, m: int, n: int)
    requires n > 0
    ensures (x + m * n) % n == x % n
  {
    var q := x / n;
    assert x == q * n + x % n;
    assert x + m * n == (q + m) * n + x % n;
    ModUnique(x + m * n, n, q + m, x % n);
  }

  /** Replacing a summand by its remainder does not change the remainder. */
  lemma ModShift(a: int, b: int, n: int)
    requires n > 0
    ensures (a % n + b) % n == (a + b) % n
  {
    var q := a / n;
    assert a == q * n + a % n;
    assert a + b == (a % n + b) + q * n;
    ModAddMultiple(a % n + b, q, n);
  }

  /** The offset `((k % n) + n) % n` computed with JavaScript's `%` is the
      mathematical residue of `k` modulo `n`. */
  lemma RotationOffset(k: int, n: int)
    requires n > 0
    ensures JsRem(JsRem(k, n) + n, n) == k % n
  {
    if k >= 0 {
      ModUnique(k % n + n, n, 1, k % n);
    } else {
      var q := (-k) / n;
      var r := (-k) % n;
      assert -k == q * n + r;
      if r == 0 {
        ModUnique(n, n, 1, 0);
        ModUnique(k, n, -q, 0);
      } else {
        ModUnique(n - r, n, 0, n - r);
        ModUnique(k, n, -q - 1, n - r);
      }
    }
  }

  // ---------------------------------------------------------------------
  // chunkArray

  /** `chunkArray`: consecutive slices of `size` elements. The empty array
      gives no chunks whatever the size; for any other array a size below 1
      never ends the source's loop, and its problem text rules it out. */
  function ChunkArray<T>(values: seq<T>, size: int): (chunks: seq<seq<T>>)
    requires size >= 1 || |values| == 0
    ensures Flatten(chunks) == values
    ensures forall i :: 0 <= i < |chunks| ==> 0 < |chunks[i]| <= size
    ensures forall i :: 0 <= i < |chunks| - 1 ==> |chunks[i]| == size
    decreases |values|
  {
    if |values| == 0 then []
    else if |values| <= size then
      assert Flatten([values]) == values + Flatten([values][1..]);
      [values]
    else
      var rest := ChunkArray(values[size..], size);
      var chunks := [values[..size]] + rest;
      assert chunks[1..] == rest;
      assert values == values[..size] + values[size..];
      chunks
  }

  // ---------------------------------------------------------------------
  // rotateLeft / rotateRight

  /** Where position `i` reads from when rotating left by `k`. */
  lemma LeftSource(k: int, n: int, i: int)
    requires n > 0 && 0 <= i < n
    ensures (i + k) % n == if i + k % n < n then i + k % n else i + k % n - n
  {
    ModShift(k, i, n);
    if i + k % n < n {
      ModUnique(k % n + i, n, 0, i + k % n);
    } else {
      ModUnique(k % n + i, n, 1, i + k % n - n);
    }
  }

  /** Where position `i` reads from when rotating right by `k`. */
  lemma RightSource(k: int, n: int, i: int)
    requires n > 0 && 0 <= i < n
    ensures (i - k) % n == if i >= k % n then i - k % n else i - k % n + n
  {
    assert k == (k / n) * n + k % n;
    assert i - k == (i - k % n) + (-(k / n)) * n;
    ModAddMultiple(i - k % n, -(k / n), n);
    if i >= k % n {
      ModUnique(i - k % n, n, 0, i - k % n);
    } else {
      ModUnique(i - k % n, n, -1, i - k % n + n);
    }
  }

  /** `rotateLeft`: the element `k` places to the right of each position,
      wrapping around; an empty array stays empty. */
  function RotateLeft<T>(values: seq<T>, k: int): (r: seq<T>)
    ensures |r| == |values|
    ensures forall i :: 0 <= i < |r| ==> r[i] == values[(i + k) % |values|]
  {
    var n := |values|;
    if n == 0 then []
    else
      var offset := JsRem(JsRem(k, n) + n, n);
      RotationOffset(k, n);
      var r := values[offset..] + values[..offset];
      assert forall i :: 0 <= i < n ==> r[i] == values[(i + k) % n] by {
        forall i | 0 <= i < n ensures r[i] == values[(i + k) % n] {
          LeftSource(k, n, i);
        }
      }
      r
  }

  /** `rotateRight`: the element `k` places to the left of each position,
      wrapping around; an empty array stays empty. */
  function RotateRight<T>(values: seq<T>, k: int): (r: seq<T>)
    ensures |r| == |values|
    ensures forall i :: 0 <= i < |r| ==> r[i] == values[(i - k) % |values|]
  {
    var n := |values|;
    if n == 0 then []
    else
      var offset := JsRem(JsRem(k, n) + n, n);
      RotationOffset(k, n);
      var r := if offset == 0 then values else values[n - offset..] + values[..n - offset];
      assert forall i :: 0 <= i < n ==> r[i] == values[(i - k) % n] by {
        forall i | 0 <= i < n ensures r[i] == values[(i - k) % n] {
          RightSource(k, n, i);
        }
      }
      r
  }

  /** Rotating right by `k` undoes rotating left by `k`, and the converse. */
  lemma RotateInverse<T>(values: seq<T>, k: int)
    ensures RotateRight(RotateLeft(values, k), k) == values
    ensures RotateLeft(RotateRight(values, k), k) == values
  {
    LeftThenRight(values, k);
    RightThenLeft(values, k);
  }

  lemma LeftThenRight<T>(values: seq<T>, k: int)
    ensures RotateRight(RotateLeft(values, k), k) == values
  {
    var n := |values|;
    var left := RotateLeft(values, k);
    var a := RotateRight(left, k);
    forall i | 0 <= i < n ensures a[i] == values[i] {
      var j := (i - k) % n;
      assert a[i] == left[j];
      ShiftBack(i, -k, n);
    }
  }

  lemma RightThenLeft<T>(values: seq<T>, k: int)
    ensures RotateLeft(RotateRight(values, k), k) == values
  {
    var n := |values|;
    var right := RotateRight(values, k);
    var b := RotateLeft(right, k);
    forall i | 0 <= i < n ensures b[i] == values[i] {
      var j := (i + k) % n;
      assert b[i] == right[j];
      ShiftBack(i, k, n);
    }
  }

  /** Shifting a position by `d` and back by `d`, modulo `n`, returns it. */
  lemma ShiftBack(i: int, d: int, n: int)
    requires n > 0 && 0 <= i < n
    ensures ((i + d) % n - d) % n == i
  {
    ModShift(i + d, -d, n);
    assert i + d + -d == i;
    ModUnique(i, n, 0, i);
  }

  // ---------------------------------------------------------------------
  // zipArrays / interleaveArrays / splitAt

  /** `zipArrays`: two-element arrays of same-index elements, as many as the
      shorter input has. */
  function ZipArrays<T>(a: seq<T>, b: seq<T>): (r: seq<seq<T>>)
    ensures |r| == if |a| < |b| then |a| else |b|
    ensures forall i :: 0 <= i < |r| ==> r[i] == [a[i], b[i]]
  {
    var length := if |a| < |b| then |a| else |b|;
    seq(length, i requires 0 <= i < length => [a[i], b[i]])
  }

  /** Unzipping a zip gives back the common-length prefixes. */
  lemma ZipUnzip<T>(a: seq<T>, b: seq<T>)
    ensures var r := ZipArrays(a, b);
            && (forall i :: 0 <= i < |r| ==> |r[i]| == 2)
            && seq(|r|, i requires 0 <= i < |r| && |r[i]| == 2 => r[i][0]) == a[..|r|]
            && seq(|r|, i requires 0 <= i < |r| && |r[i]| == 2 => r[i][1]) == b[..|r|]
  {
  }

  /** `interleaveArrays`: alternating elements while both inputs last, then
      the rest of the longer one. */
  function InterleaveArrays<T>(a: seq<T>, b: seq<T>): (r: seq<T>)
    ensures |r| == |a| + |b|
    ensures var m := if |a| < |b| then |a| else |b|;
            && (forall i :: 0 <= i < m ==> r[2 * i] == a[i] && r[2 * i + 1] == b[i])
            && (forall i :: m <= i < |a| ==> r[m + i] == a[i])
            && (forall i :: m <= i < |b| ==> r[m + i] == b[i])
    decreases |a| + |b|
  {
    if |a| == 0 then b
    else if |b| == 0 then a
    else
      var rest := InterleaveArrays(a[1..], b[1..]);
      InterleaveCons(a, b, rest);
      [a[0], b[0]] + rest
  }

  /** The alternation and the tails of `InterleaveArrays`, as one fact. */
  ghost predicate Interleaved<T>(a: seq<T>, b: seq<T>, r: seq<T>) {
    var m := if |a| < |b| then |a| else |b|;
    && |r| == |a| + |b|
    && (forall i :: 0 <= i < m ==> r[2 * i] == a[i] && r[2 * i + 1] == b[i])
    && (forall i :: m <= i < |a| ==> r[m + i] == a[i])
    && (forall i :: m <= i < |b| ==> r[m + i] == b[i])
  }

  /** Putting the two heads in front of an interleaving of the tails
      interleaves the whole inputs. */
  lemma InterleaveCons<T>(a: seq<T>, b: seq<T>, rest: seq<T>)
    requires |a| > 0 && |b| > 0
    requires Interleaved(a[1..], b[1..], rest)
    ensures Interleaved(a, b, [a[0], b[0]] + rest)
  {
    var r := [a[0], b[0]] + rest;
    var m := if |a| < |b| then |a| else |b|;
    forall i | 0 <= i < m
      ensures r[2 * i] == a[i] && r[2 * i + 1] == b[i]
    {
      if i > 0 {
        assert r[2 * i] == rest[2 * (i - 1)] && r[2 * i + 1] == rest[2 * (i - 1) + 1];
      }
    }
    forall i | m <= i < |a|
      ensures r[m + i] == a[i]
    {
      assert r[m + i] == rest[(m - 1) + (i - 1)];
    }
    forall i | m <= i < |b|
      ensures r[m + i] == b[i]
    {
      assert r[m + i] == rest[(m - 1) + (i - 1)];
    }
  }

  /** `splitAt`: the prefix up to the index clamped into `[0, length]`, and
      the remainder. */
  function SplitAt<T>(values: seq<T>, index: int): (r: (seq<T>, seq<T>))
    ensures r.0 + r.1 == values
    ensures |r.0| == if index < 0 then 0 else if index > |values| then |values| else index
  {
    var clamped := if index < 0 then 0 else if index > |values| then |values| else index;
    assert values[..clamped] + values[clamped..] == values;
    (values[..clamped], values[clamped..])
  }

  // ---------------------------------------------------------------------
  // uniqueArray

  /** The position of the first occurrence of `x`. */
  function IndexOf<T(==)>(s: seq<T>, x: T): (i: nat)
    requires x in s
    ensures i < |s| && s[i] == x && x !in s[..i]
    decreases |s|
  {
    if s[0] == x then 0
    else
      var i := IndexOf(s[1..], x) + 1;
      assert s[..i] == [s[0]] + s[1..][..i - 1];
      i
  }

  /** The first occurrence within a prefix that contains the value is its
      first occurrence overall. */
  lemma {:induction false} IndexOfPrefix<T>(s: seq<T>, k: nat, x: T)
    requires k <= |s| && x in s[..k]
    ensures x in s && IndexOf(s, x) == IndexOf(s[..k], x)
    decreases k
  {
    assert s[..k][0] == s[0];
    if s[0] != x {
      assert s[..k][1..] == s[1..][..k - 1];
      IndexOfPrefix(s[1..], k - 1, x);
    }
  }

  /** `uniqueArray`: each distinct value once, in the order of its first
      occurrence. The three clauses determine the result. */
  function UniqueArray<T(==)>(values: seq<T>): (r: seq<T>)
    ensures Distinct(r)
    ensures forall i :: 0 <= i < |r| ==> r[i] in values
    ensures forall i :: 0 <= i < |values| ==> values[i] in r
    ensures forall i, j :: 0 <= i < j < |r| ==> IndexOf(values, r[i]) < IndexOf(values, r[j])
    decreases |values|
  {
    if |values| == 0 then []
    else
      var init := values[..|values| - 1];
      var last := values[|values| - 1];
      var u := UniqueArray(init);
      UniqueStep(values, u);
      if last in u then u else u + [last]
  }

  lemma UniqueStep<T>(values: seq<T>, u: seq<T>)
    requires |values| > 0
    requires var init := values[..|values| - 1];
             && Distinct(u)
             && (forall i :: 0 <= i < |u| ==> u[i] in init)
             && (forall i :: 0 <= i < |init| ==> init[i] in u)
             && (forall i, j :: 0 <= i < j < |u| ==> IndexOf(init, u[i]) < IndexOf(init, u[j]))
    ensures var last := values[|values| - 1];
            var r := if last in u then u else u + [last];
            && Distinct(r)
            && (forall i :: 0 <= i < |r| ==> r[i] in values)
            && (forall i :: 0 <= i < |values| ==> values[i] in r)
            && (forall i, j :: 0 <= i < j < |r| ==> IndexOf(values, r[i]) < IndexOf(values, r[j]))
  {
    var init := values[..|values| - 1];
    var last := values[|values| - 1];
    assert values == init + [last];
    assert forall x :: x in init ==> x in values;
    UniqueIndexes(values, u);
    if last !in u {
      assert last !in init;
      var r := u + [last];
      assert IndexOf(values, last) == |init|;
      forall i, j | 0 <= i < j < |r| ensures IndexOf(values, r[i]) < IndexOf(values, r[j]) {
        assert r[i] == u[i];
        if j == |u| {
          assert r[j] == last;
        } else {
          assert r[j] == u[j];
        }
      }
      forall i, j | 0 <= i < j < |r| ensures r[i] != r[j] {
        if j == |u| {
          assert r[i] == u[i] && r[j] == last;
        }
      }
    }
  }

  /** Within the earlier values, the first occurrence of a kept value is the
      same as in all values. */
  lemma UniqueIndexes<T>(values: seq<T>, u: seq<T>)
    requires |values| > 0 && forall i :: 0 <= i < |u| ==> u[i] in values[..|values| - 1]
    ensures forall i :: 0 <= i < |u| ==>
              u[i] in values && IndexOf(values, u[i]) == IndexOf(values[..|values| - 1], u[i]) < |values| - 1
  {
    forall i | 0 <= i < |u|
      ensures u[i] in values && IndexOf(values, u[i]) == IndexOf(values[..|values| - 1], u[i]) < |values| - 1
    {
      IndexOfPrefix(values, |values| - 1, u[i]);
    }
  }

  // ---------------------------------------------------------------------
  // windowSums

  function WindowStart(index: int, size: int): int {
    if index - size > 0 then index - size else 0
  }

  /** One step of the running window: the next value enters, and once the
      window is full the oldest one leaves. */
  lemma SlideWindow(values: seq<int>, index: int, size: int)
    requires 0 < size && 0 <= index < |values|
    ensures Sum(values[WindowStart(index + 1, size)..index + 1])
            == Sum(values[WindowStart(index, size)..index]) + values[index]
               - (if index >= size then values[index - size] else 0)
  {
    var start := WindowStart(index, size);
    var grown := values[start..index + 1];
    assert grown[..|grown| - 1] == values[start..index];
    if index >= size {
      SumFront(grown);
      assert grown[1..] == values[index - size + 1..index + 1];
    }
  }

  /** `windowSums`: the sum of every run of `size` consecutive values, left to
      right; none when `size` is not positive or exceeds the length. */
  method WindowSums(values: seq<int>, size: int) returns (r: seq<int>)
    ensures size <= 0 || size > |values| ==> r == []
    ensures 0 < size <= |values| ==>
              |r| == |values| - size + 1 &&
              forall j :: 0 <= j < |r| ==> r[j] == Sum(values[j..j + size])
  {
    if size <= 0 || size > |values| {
      return [];
    }
    r := [];
    var windowSum := 0;
    for index := 0 to |values|
      invariant windowSum == Sum(values[WindowStart(index, size)..index])
      invariant |r| == if index >= size then index - size + 1 else 0
      invariant forall j :: 0 <= j < |r| ==> r[j] == Sum(values[j..j + size])
    {
      SlideWindow(values, index, size);
      windowSum := windowSum + values[index];
      if index >= size {
        windowSum := windowSum - values[index - size];
      }
      if index >= size - 1 {
        r := r + [windowSum];
      }
    }
  }

  // ---------------------------------------------------------------------
  // mergeSortedArrays

  /** `mergeSortedArrays`: repeatedly the smaller head, the head of `a` on a
      tie, then whatever remains. The result rearranges the two inputs. */
  function MergeSortedArrays(a: seq<int>, b: seq<int>): (r: seq<int>)
    ensures multiset(r) == multiset(a) + multiset(b)
    decreases |a| + |b|
  {
    if |a| == 0 then b
    else if |b| == 0 then a
    else if a[0] <= b[0] then
      assert a == [a[0]] + a[1..];
      [a[0]] + MergeSortedArrays(a[1..], b)
    else
      assert b == [b[0]] + b[1..];
      [b[0]] + MergeSortedArrays(a, b[1..])
  }

  lemma AscendingLowerBound(s: seq<int>, x: int)
    requires Ascending(s) && x in s
    ensures s[0] <= x
  {
    var i :| 0 <= i < |s| && s[i] == x;
  }

  lemma PrependAscending(h: int, rest: seq<int>)
    requires Ascending(rest)
    requires forall x :: x in multiset(rest) ==> h <= x
    ensures Ascending([h] + rest)
  {
    var r := [h] + rest;
    forall i, j | 0 <= i < j < |r| ensures r[i] <= r[j] {
      assert r[j] == rest[j - 1];
      if i > 0 {
        assert r[i] == rest[i - 1];
      } else {
        assert rest[j - 1] in multiset(rest);
      }
    }
  }

  /** Merging two ascending arrays gives an ascending array. */
  lemma {:induction false} MergeSortedArraysAscending(a: seq<int>, b: seq<int>)
    requires Ascending(a) && Ascending(b)
    ensures Ascending(MergeSortedArrays(a, b))
    decreases |a| + |b|
  {
    if |a| > 0 && |b| > 0 {
      if a[0] <= b[0] {
        var rest := MergeSortedArrays(a[1..], b);
        MergeSortedArraysAscending(a[1..], b);
        forall x | x in multiset(rest) ensures a[0] <= x {
          if x in multiset(a[1..]) {
            assert x in a[1..];
            AscendingLowerBound(a, x);
          } else {
            assert x in b;
            AscendingLowerBound(b, x);
          }
        }
        PrependAscending(a[0], rest);
      } else {
        var rest := MergeSortedArrays(a, b[1..]);
        MergeSortedArraysAscending(a, b[1..]);
        forall x | x in multiset(rest) ensures b[0] <= x {
          if x in multiset(a) {
            assert x in a;
            AscendingLowerBound(a, x);
          } else {
            assert x in b[1..];
            AscendingLowerBound(b, x);
          }
        }
        PrependAscending(b[0], rest);
      }
    }
  }

  // ---------------------------------------------------------------------
  // binarySearch

  /** `binarySearch`: a position holding `target`, or -1. On an ascending
      array -1 means the target is absent. */
  method BinarySearch(values: seq<int>, target: int) returns (r: int)
    ensures r == -1 || (0 <= r < |values| && values[r] == target)
    ensures Ascending(values) ==> (r == -1 <==> target !in values)
  {
    var left := 0;
    var right := |values| - 1;
    while left <= right
      invariant 0 <= left <= right + 1 <= |values|
      invariant Ascending(values) ==>
                  forall i :: 0 <= i < |values| && (i < left || i > right) ==> values[i] != target
    {
      var mid := (left + right) / 2;
      var value := values[mid];
      if value == target {
        return mid;
      }
      if value < target {
        left := mid + 1;
      } else {
        right := mid - 1;
      }
    }
    return -1;
  }

  // ---------------------------------------------------------------------
  // moveZeroes

  function Zeros(n: nat): (r: seq<int>)
    ensures |r| == n
  {
    if n == 0 then [] else [0] + Zeros(n - 1)
  }

  lemma {:induction false} ZerosAreZero(n: nat)
    ensures forall i :: 0 <= i < n ==> Zeros(n)[i] == 0
  {
    if n > 0 {
      ZerosAreZero(n - 1);
      assert forall i :: 1 <= i < n ==> Zeros(n)[i] == Zeros(n - 1)[i - 1];
    }
  }

  /** The non-zero values in their order. */
  function NonZero(values: seq<int>): (r: seq<int>)
    ensures |r| <= |values|
    ensures 0 !in r
    decreases |values|
  {
    if |values| == 0 then []
    else
      var rest := NonZero(values[1..]);
      if values[0] != 0 then [values[0]] + rest else rest
  }

  /** The kept values appear in the input in the same order. */
  lemma {:induction false} NonZeroSubsequence(values: seq<int>)
    ensures IsSubsequence(NonZero(values), values)
    decreases |values|
  {
    if |values| > 0 {
      NonZeroSubsequence(values[1..]);
      var rest := NonZero(values[1..]);
      if values[0] != 0 {
        assert ([values[0]] + rest)[1..] == rest;
      } else if |rest| > 0 {
        assert rest[0] in rest;
      }
    }
  }

  /** Dropping the zeros removes exactly `|values| - |NonZero(values)|`
      zeros and nothing else. */
  predicate ZerosAccounted(values: seq<int>) {
    multiset(NonZero(values)) + multiset(Zeros(|values| - |NonZero(values)|)) == multiset(values)
  }

  lemma {:induction false} NonZeroMultiset(values: seq<int>)
    ensures ZerosAccounted(values)
    decreases |values|
  {
    if |values| > 0 {
      NonZeroMultiset(values[1..]);
      if values[0] == 0 {
        ZeroStep(values);
      } else {
        KeptStep(values);
      }
    }
  }

  lemma ZeroStep(values: seq<int>)
    requires |values| > 0 && values[0] == 0 && ZerosAccounted(values[1..])
    ensures ZerosAccounted(values)
  {
    var tail := values[1..];
    var rest := NonZero(tail);
    var zs := Zeros(|tail| - |rest|);
    assert values == [0] + tail;
    assert NonZero(values) == rest;
    var zm := Zeros(|values| - |rest|);
    assert zm == [0] + zs;
    assert multiset(zm) == multiset{0} + multiset(zs);
    assert multiset(values) == multiset{0} + multiset(tail);
    AddOneEach(multiset(rest), multiset(zs), multiset(tail), 0);
  }

  lemma KeptStep(values: seq<int>)
    requires |values| > 0 && values[0] != 0 && ZerosAccounted(values[1..])
    ensures ZerosAccounted(values)
  {
    var tail := values[1..];
    var rest := NonZero(tail);
    var zs := Zeros(|tail| - |rest|);
    assert values == [values[0]] + tail;
    var nz := NonZero(values);
    assert nz == [values[0]] + rest;
    assert |values| - |nz| == |tail| - |rest|;
    assert multiset(nz) == multiset{values[0]} + multiset(rest);
    assert multiset(values) == multiset{values[0]} + multiset(tail);
    assert Zeros(|values| - |nz|) == zs;
    AddOneEach(multiset(rest), multiset(zs), multiset(tail), values[0]);
  }

  /** Adding one copy of `x` to one part adds it to the whole. */
  lemma AddOneEach(a: multiset<int>, b: multiset<int>, whole: multiset<int>, x: int)
    requires a + b == whole
    ensures a + (multiset{x} + b) == multiset{x} + whole
    ensures (multiset{x} + a) + b == multiset{x} + whole
  {
  }

  /** `moveZeroes`: the non-zero values in their order, then as many zeros
      as were removed; the result is a rearrangement of the input. */
  function MoveZeroes(values: seq<int>): (r: seq<int>)
    ensures |r| == |values|
    ensures multiset(r) == multiset(values)
    ensures exists k :: 0 <= k <= |r| && IsSubsequence(r[..k], values) &&
              (forall i :: 0 <= i < k ==> r[i] != 0) && (forall i :: k <= i < |r| ==> r[i] == 0)
  {
    var nonZero := NonZero(values);
    var zeros := Zeros(|values| - |nonZero|);
    NonZeroMultiset(values);
    NonZeroSubsequence(values);
    ZerosAreZero(|values| - |nonZero|);
    assert multiset(nonZero + zeros) == multiset(nonZero) + multiset(zeros);
    KeptThenZeros(nonZero, zeros, values);
    nonZero + zeros
  }

  /** Kept values followed by zeros split at the end of the kept part. */
  lemma KeptThenZeros(kept: seq<int>, zeros: seq<int>, values: seq<int>)
    requires IsSubsequence(kept, values) && 0 !in kept
    requires forall i :: 0 <= i < |zeros| ==> zeros[i] == 0
    ensures var r := kept + zeros;
            exists k :: 0 <= k <= |r| && IsSubsequence(r[..k], values) &&
              (forall i :: 0 <= i < k ==> r[i] != 0) && (forall i :: k <= i < |r| ==> r[i] == 0)
  {
    var r := kept + zeros;
    var k := |kept|;
    assert r[..k] == kept;
    assert forall i :: 0 <= i < k ==> r[i] == kept[i] && kept[i] in kept;
    assert forall i :: k <= i < |r| ==> r[i] == zeros[i - k];
    assert 0 <= k <= |r| && IsSubsequence(r[..k], values) &&
           (forall i :: 0 <= i < k ==> r[i] != 0) && (forall i :: k <= i < |r| ==> r[i] == 0);
  }

  // ---------------------------------------------------------------------
  // gcd

  function Abs(x: int): nat {
    if x < 0 then -x else x
  }

  predicate Divides(d: int, n: int)
    requires d > 0
  {
    n % d == 0
  }

  lemma DividesRemainder(d: int, x: int, y: int)
    requires d > 0 && y > 0 && Divides(d, y)
    ensures Divides(d, x) <==> Divides(d, x % y)
  {
    var q := y / d;
    assert y == q * d;
    assert x == (x / y) * y + x % y;
    assert x == x % y + ((x / y) * q) * d;
    ModAddMultiple(x % y, (x / y) * q, d);
  }

  /** `gcd`: Euclid's algorithm on the absolute values. The result is the
      greatest common divisor, with `gcd(0, 0) == 0`. */
  method Gcd(a: int, b: int) returns (r: int)
    ensures r >= 0
    ensures r == 0 <==> a == 0 && b == 0
    ensures r > 0 ==> Divides(r, a) && Divides(r, b)
    ensures forall d :: d > 0 && Divides(d, a) && Divides(d, b) ==> r == 0 || Divides(d, r)
  {
    var x := Abs(a);
    var y := Abs(b);
    assert forall d :: d > 0 ==> (Divides(d, x) <==> Divides(d, a)) && (Divides(d, y) <==> Divides(d, b)) by {
      forall d | d > 0 ensures (Divides(d, x) <==> Divides(d, a)) && (Divides(d, y) <==> Divides(d, b)) {
        DividesNegation(d, a);
        DividesNegation(d, b);
      }
    }
    while y != 0
      invariant x >= 0 && y >= 0
      invariant x == 0 && y == 0 <==> a == 0 && b == 0
      invariant forall d :: d > 0 ==> (Divides(d, x) && Divides(d, y) <==> Divides(d, a) && Divides(d, b))
      decreases y
    {
      var temp := x % y;
      forall d | d > 0
        ensures Divides(d, y) && Divides(d, temp) <==> Divides(d, x) && Divides(d, y)
      {
        if Divides(d, y) {
          DividesRemainder(d, x, y);
        }
      }
      x := y;
      y := temp;
    }
    assert forall d :: d > 0 ==> Divides(d, 0) by {
      forall d | d > 0 ensures Divides(d, 0) { }
    }
    if x > 0 {
      assert Divides(x, x) by {
        ModAddMultiple(0, 1, x);
      }
    }
    return x;
  }

  lemma DividesNegation(d: int, n: int)
    requires d > 0
    ensures Divides(d, -n) <==> Divides(d, n)
  {
    var q := n / d;
    var r := n % d;
    assert n == q * d + r;
    if r == 0 {
      assert -n == 0 + (-q) * d;
      ModAddMultiple(0, -q, d);
    } else {
      assert -n == (d - r) + (-q - 1) * d;
      ModAddMultiple(d - r, -q - 1, d);
    }
  }

  // ---------------------------------------------------------------------
  // fibonacci

  function Fib(n: nat): nat {
    if n < 2 then n else Fib(n - 1) + Fib(n - 2)
  }

  /** `fibonacci`: the n-th Fibonacci number, counted from `F(0) = 0`; a
      negative argument skips the loop and returns 1. */
  method Fibonacci(n: int) returns (r: int)
    ensures n >= 0 ==> r == Fib(n)
    ensures n < 0 ==> r == 1
  {
    if n == 0 {
      return 0;
    }
    if n == 1 {
      return 1;
    }
    var prev := 0;
    var curr := 1;
    var i := 2;
    while i <= n
      invariant n >= 2 ==> 2 <= i <= n + 1 && prev == Fib(i - 2) && curr == Fib(i - 1)
      invariant n < 2 ==> i == 2 && curr == 1
    {
      var next := prev + curr;
      prev := curr;
      curr := next;
      i := i + 1;
    }
    return curr;
  }
}

=== FILE: text.dfy ===
/** String helpers the application borrows from the JavaScript runtime:
    `Array.prototype.join`, `String.prototype.split` on one character,
    `trim`/`trimEnd`, `includes`, ASCII lower-casing, the decimal rendering of
    a non-negative integer, and the default `Array.prototype.sort` order on
    strings. */
module Text {

  /** `lines.join(sep)`. */
  function Join(lines: seq<string>, sep: string): string
    decreases |lines|
  {
    if |lines| == 0 then ""
    else if |lines| == 1 then lines[0]
    else lines[0] + sep + Join(lines[1..], sep)
  }

  lemma {:induction false} JoinAppend(a: seq<string>, b: seq<string>, sep: string)
    requires |a| > 0 && |b| > 0
    ensures Join(a + b, sep) == Join(a, sep) + sep + Join(b, sep)
    decreases |a|
  {
    if |a| == 1 {
      assert (a + b)[1..] == b;
    } else {
      assert (a + b)[1..] == a[1..] + b;
      JoinAppend(a[1..], b, sep);
    }
  }

  /** The joined text is at least as long as its last part. */
  lemma {:induction false} JoinLength(lines: seq<string>, sep: string)
    requires |lines| > 0
    ensures |Join(lines, sep)| >= |lines[|lines| - 1]|
    decreases |lines|
  {
    if |lines| > 1 {
      JoinLength(lines[1..], sep);
    }
  }

  /** Every part followed by the separator, the last one included. */
  function Terminated(lines: seq<string>, sep: string): string
    decreases |lines|
  {
    if |lines| == 0 then "" else lines[0] + sep + Terminated(lines[1..], sep)
  }

  /** Joining a list whose tail is non-empty: every earlier part is followed
      by the separator. */
  lemma {:induction false} JoinAfter(a: seq<string>, b: seq<string>, sep: string)
    requires |b| > 0
    ensures Join(a + b, sep) == Terminated(a, sep) + Join(b, sep)
    decreases |a|
  {
    if |a| == 0 {
      assert a + b == b;
    } else {
      assert (a + b)[0] == a[0];
      assert (a + b)[1..] == a[1..] + b;
      JoinAfter(a[1..], b, sep);
    }
  }

  /** The joined text ends with the last part. */
  lemma {:induction false} JoinEndsWithLast(lines: seq<string>, sep: string)
    requires |lines| > 0
    ensures var j := Join(lines, sep);
            var last := lines[|lines| - 1];
            |j| >= |last| && j[|j| - |last|..] == last
    decreases |lines|
  {
    if |lines| > 1 {
      JoinEndsWithLast(lines[1..], sep);
    }
  }

  // ---------------------------------------------------------------------
  // Splitting on one character

  /** `s.split(sep)` for a one-character separator: the empty string splits into
      one empty part, and every occurrence of `sep` starts a new part. */
  function Split(s: string, sep: char): (parts: seq<string>)
    ensures |parts| > 0
    ensures forall i :: 0 <= i < |parts| ==> sep !in parts[i]
    decreases |s|
  {
    if |s| == 0 then [""]
    else
      var rest := Split(s[1..], sep);
      if s[0] == sep then [""] + rest
      else [[s[0]] + rest[0]] + rest[1..]
  }

  /** Splitting and re-joining with the same separator gives the text back. */
  lemma {:induction false} SplitJoin(s: string, sep: char)
    ensures Join(Split(s, sep), [sep]) == s
    decreases |s|
  {
    if |s| > 0 {
      var rest := Split(s[1..], sep);
      SplitJoin(s[1..], sep);
      if s[0] == sep {
        assert ([""] + rest)[1..] == rest;
      } else {
        if |rest| == 1 {
          assert Join(rest, [sep]) == rest[0];
        } else {
          assert Join(rest, [sep]) == rest[0] + [sep] + Join(rest[1..], [sep]);
          assert ([[s[0]] + rest[0]] + rest[1..])[1..] == rest[1..];
        }
      }
    }
  }

  // ---------------------------------------------------------------------
  // Whitespace and trimming

  /** The characters `String.prototype.trim` removes: ECMAScript WhiteSpace
      (tab, vertical tab, form feed, space, no-break space, byte-order mark and
      the Unicode space separators) and LineTerminator (LF, CR, LS, PS). */
  predicate IsWhitespace(c: char) {
    || c == '\t' || c == '\n' || c == '\r' || c == ' '
    || c == '\U{000B}' || c == '\U{000C}' || c == '\U{00A0}' || c == '\U{FEFF}'
    || c == '\U{1680}' || ('\U{2000}' <= c <= '\U{200A}')
    || c == '\U{2028}' || c == '\U{2029}' || c == '\U{202F}' || c == '\U{205F}'
    || c == '\U{3000}'
  }

  /** `s.trimEnd()`: the longest prefix of `s` that does not end in whitespace. */
  function TrimEnd(s: string): (r: string)
    ensures |r| <= |s| && r == s[..|r|]
    ensures |r| == 0 || !IsWhitespace(r[|r| - 1])
    ensures forall i :: |r| <= i < |s| ==> IsWhitespace(s[i])
    decreases |s|
  {
    if |s| > 0 && IsWhitespace(s[|s| - 1]) then TrimEnd(s[..|s| - 1]) else s
  }

  /** Trimming the end of a text that is followed only by whitespace gives
      back that text when its last character is not whitespace. */
  lemma {:induction false} TrimEndWhitespaceTail(s: string, w: string)
    requires |s| > 0 && !IsWhitespace(s[|s| - 1])
    requires forall i :: 0 <= i < |w| ==> IsWhitespace(w[i])
    ensures TrimEnd(s + w) == s
    decreases |w|
  {
    if |w| == 0 {
      assert s + w == s;
    } else {
      var t := s + w;
      assert t[|t| - 1] == w[|w| - 1];
      assert t[..|t| - 1] == s + w[..|w| - 1];
      TrimEndWhitespaceTail(s, w[..|w| - 1]);
    }
  }

  /** `s.trimStart()`. */
  function TrimStart(s: string): (r: string)
    ensures |r| <= |s| && r == s[|s| - |r|..]
    ensures |r| == 0 || !IsWhitespace(r[0])
    ensures forall i :: 0 <= i < |s| - |r| ==> IsWhitespace(s[i])
    decreases |s|
  {
    if |s| > 0 && IsWhitespace(s[0]) then TrimStart(s[1..]) else s
  }

  /** Every character of `w` is whitespace. */
  predicate AllWhitespace(w: string) {
    forall k :: 0 <= k < |w| ==> IsWhitespace(w[k])
  }

  /** `s.trim()`: the slice of `s` left once whitespace is removed from both
      ends, so only whitespace lies outside it and it neither starts nor ends
      with whitespace. */
  function Trim(s: string): (r: string)
    ensures |r| == 0 || (!IsWhitespace(r[0]) && !IsWhitespace(r[|r| - 1]))
    ensures exists i, j :: 0 <= i <= j <= |s| && r == s[i..j]
    ensures exists i, j :: 0 <= i <= j <= |s| && r == s[i..j]
                           && AllWhitespace(s[..i]) && AllWhitespace(s[j..])
  {
    var u := TrimStart(s);
    var t := TrimEnd(u);
    var k := |s| - |u|;
    assert t == s[k..k + |t|];
    assert AllWhitespace(s[..k]);
    var tail := s[k + |t|..];
    assert AllWhitespace(tail) by {
      forall m | 0 <= m < |tail|
        ensures IsWhitespace(tail[m])
      {
        assert tail[m] == u[|t| + m];
      }
    }
    t
  }

  // ---------------------------------------------------------------------
  // Case and substring search

  /** `toLowerCase` restricted to the ASCII letters; every other character is
      kept. */
  function LowerChar(c: char): char {
    if 'A' <= c <= 'Z' then (c as int + 32) as char else c
  }

  function Lower(s: string): (r: string)
    ensures |r| == |s|
    ensures forall i :: 0 <= i < |s| ==> r[i] == LowerChar(s[i])
  {
    seq(|s|, i requires 0 <= i < |s| => LowerChar(s[i]))
  }

  /** `hay.includes(needle)`: `needle` occurs in `hay` at some position. */
  predicate Contains(hay: string, needle: string) {
    exists i | 0 <= i <= |hay| - |needle| :: OccursAt(hay, needle, i)
  }

  predicate OccursAt(hay: string, needle: string, i: int) {
    0 <= i <= |hay| - |needle| && hay[i..i + |needle|] == needle
  }

  lemma EmptyContained(hay: string)
    ensures Contains(hay, "")
  {
    assert OccursAt(hay, "", 0);
  }

  // ---------------------------------------------------------------------
  // Decimal rendering of non-negative integers

  function Digit(d: nat): char
    requires d < 10
  {
    "0123456789"[d]
  }

  /** `String(n)` for a non-negative integer: its decimal digits, most
      significant first, with no leading zero. */
  function Decimal(n: nat): (r: string)
    ensures |r| > 0
    ensures forall i :: 0 <= i < |r| ==> '0' <= r[i] <= '9'
    ensures r[0] == '0' ==> n == 0
    decreases n
  {
    if n < 10 then [Digit(n)] else Decimal(n / 10) + [Digit(n % 10)]
  }

  function DigitValue(c: char): nat
    requires '0' <= c <= '9'
  {
    c as int - '0' as int
  }

  /** The value of a string of decimal digits. */
  function ParseDecimal(s: string): nat
    requires forall i :: 0 <= i < |s| ==> '0' <= s[i] <= '9'
    decreases |s|
  {
    if |s| == 0 then 0 else ParseDecimal(s[..|s| - 1]) * 10 + DigitValue(s[|s| - 1])
  }

  /** Reading the digits back gives the number: the rendering loses nothing. */
  lemma {:induction false} DecimalRoundTrip(n: nat)
    ensures ParseDecimal(Decimal(n)) == n
    decreases n
  {
    if n >= 10 {
      var r := Decimal(n);
      assert r[..|r| - 1] == Decimal(n / 10);
      DecimalRoundTrip(n / 10);
    }
  }

  /** Distinct numbers render as distinct strings, so decimal index keys name
      distinct array positions. */
  lemma DecimalInjective(m: nat, n: nat)
    requires Decimal(m) == Decimal(n)
    ensures m == n
  {
    DecimalRoundTrip(m);
    DecimalRoundTrip(n);
  }

  // ---------------------------------------------------------------------
  // Default string order

  /** The order `Array.prototype.sort` uses without a comparator: lexicographic
      by character code, a proper prefix before its extensions. */
  predicate Less(a: string, b: string)
    decreases |a|
  {
    if |a| == 0 then |b| > 0
    else if |b| == 0 then false
    else if a[0] != b[0] then a[0] < b[0]
    else Less(a[1..], b[1..])
  }

  lemma {:induction false} LessIrreflexive(a: string)
    ensures !Less(a, a)
    decreases |a|
  {
    if |a| > 0 {
      LessIrreflexive(a[1..]);
    }
  }

  lemma {:induction false} LessTransitive(a: string, b: string, c: string)
    requires Less(a, b) && Less(b, c)
    ensures Less(a, c)
    decreases |a|
  {
    if |a| > 0 && a[0] == b[0] && b[0] == c[0] {
      LessTransitive(a[1..], b[1..], c[1..]);
    }
  }

  lemma {:induction false} LessTotal(a: string, b: string)
    requires a != b
    ensures Less(a, b) || Less(b, a)
    decreases |a|
  {
    if |a| > 0 && |b| > 0 && a[0] == b[0] {
      assert a == [a[0]] + a[1..] && b == [b[0]] + b[1..];
      LessTotal(a[1..], b[1..]);
    }
  }

  lemma LessAsymmetric(a: string, b: string)
    requires Less(a, b)
    ensures !Less(b, a)
  {
    if Less(b, a) {
      LessTransitive(a, b, a);
      LessIrreflexive(a);
    }
  }
}

=== FILE: values.dfy ===
/** The JavaScript values a solver receives and returns, as an immutable tagged
    union. Numbers are integers; an object is its list of own enumerable
    properties; a function is known only by an identity. */
module JsValues {
  import opened Wrappers
  import opened Text

  datatype Value =
    | Undefined
    | Null
    | Bool(b: bool)
    | Num(n: int)
    | Str(s: string)
    | Arr(elems: seq<Value>)
    | Obj(props: seq<(string, Value)>)
    | Fn(id: nat)

  /** `typeof v === 'object' && v !== null`: arrays and plain objects. */
  predicate IsObjectLike(v: Value) {
    v.Arr? || v.Obj?
  }

  /** `Object.is(a, b)`. Without NaN and signed zeros this is equality of
      primitives and identity of functions. Arrays and objects are compared
      by reference in the source; values here carry no reference, so two of
      them are never the same value and the structural branches decide. */
  predicate SameValue(a: Value, b: Value) {
    match (a, b)
    case (Undefined, Undefined) => true
    case (Null, Null) => true
    case (Bool(x), Bool(y)) => x == y
    case (Num(x), Num(y)) => x == y
    case (Str(x), Str(y)) => x == y
    case (Fn(x), Fn(y)) => x == y
    case _ => false
  }

  /** `Boolean(v)`. */
  predicate Truthy(v: Value) {
    match v
    case Undefined => false
    case Null => false
    case Bool(b) => b
    case Num(n) => n != 0
    case Str(s) => |s| > 0
    case _ => true
  }

  // ---------------------------------------------------------------------
  // Property keys

  /** The property key of array position `i`: its decimal rendering. */
  function IndexKey(i: nat): string {
    Decimal(i)
  }

  function KeysOf(ps: seq<(string, Value)>): (keys: seq<string>)
    ensures |keys| == |ps|
    ensures forall i :: 0 <= i < |ps| ==> keys[i] == ps[i].0
  {
    seq(|ps|, i requires 0 <= i < |ps| => ps[i].0)
  }

  predicate DistinctKeys(ps: seq<(string, Value)>) {
    forall i, j :: 0 <= i < j < |ps| ==> ps[i].0 != ps[j].0
  }

  /** `Object.keys(v)`: the index keys of an array, the property names of a
      plain object, nothing for anything else. */
  function OwnKeys(v: Value): (keys: seq<string>)
    ensures v.Arr? ==> |keys| == |v.elems|
    ensures v.Obj? ==> |keys| == |v.props|
  {
    match v
    case Arr(xs) => seq(|xs|, i requires 0 <= i < |xs| => IndexKey(i))
    case Obj(ps) => KeysOf(ps)
    case _ => []
  }

  /** The array position named by `k`, searched among the first `n`. */
  function ArrayIndex(k: string, n: nat): (r: Option<nat>)
    ensures r.Some? ==> r.value < n && IndexKey(r.value) == k
    decreases n
  {
    if n == 0 then None
    else if IndexKey(n - 1) == k then Some(n - 1)
    else ArrayIndex(k, n - 1)
  }

  lemma ArrayIndexOfKey(i: nat, n: nat)
    requires i < n
    ensures ArrayIndex(IndexKey(i), n) == Some(i)
    decreases n
  {
    if IndexKey(n - 1) == IndexKey(i) {
      DecimalInjective(n - 1, i);
    } else {
      ArrayIndexOfKey(i, n - 1);
    }
  }

  /** `Object.prototype.hasOwnProperty.call(v, k)`. An array owns its index
      keys and also its non-enumerable `length` property. */
  predicate HasOwn(v: Value, k: string) {
    match v
    case Arr(xs) => k == "length" || ArrayIndex(k, |xs|).Some?
    case Obj(ps) => k in KeysOf(ps)
    case _ => false
  }

  /** The first property of `ps` named `k`, or `undefined`. */
  function Lookup(ps: seq<(string, Value)>, k: string): (r: Value)
    ensures k !in KeysOf(ps) ==> r == Undefined
  {
    if |ps| == 0 then Undefined
    else if ps[0].0 == k then ps[0].1
    else
      assert KeysOf(ps[1..]) == KeysOf(ps)[1..];
      Lookup(ps[1..], k)
  }

  /** With distinct names, looking up the name of entry `i` finds entry `i`. */
  lemma {:induction false} LookupDistinct(ps: seq<(string, Value)>, i: nat)
    requires DistinctKeys(ps) && i < |ps|
    ensures Lookup(ps, ps[i].0) == ps[i].1
    decreases |ps|
  {
    if i > 0 {
      assert ps[0].0 != ps[i].0;
      assert ps[1..][i - 1] == ps[i];
      LookupDistinct(ps[1..], i - 1);
    }
  }

  /** `v[k]` for an own property `k` of an array or a plain object. */
  function Get(v: Value, k: string): Value {
    match v
    case Arr(xs) =>
      if k == "length" then Num(|xs|)
      else (match ArrayIndex(k, |xs|)
            case Some(i) => xs[i]
            case None => Undefined)
    case Obj(ps) => Lookup(ps, k)
    case _ => Undefined
  }

  /** A value a JavaScript program can hold: every object names each of its
      properties once, all the way down. */
  predicate WellFormed(v: Value)
    decreases v
  {
    match v
    case Arr(xs) => forall i | 0 <= i < |xs| :: WellFormed(xs[i])
    case Obj(ps) => DistinctKeys(ps) && forall i | 0 <= i < |ps| :: WellFormed(ps[i].1)
    case _ => true
  }
}

=== FILE: wrappers.dfy ===
/** Failure-compatible wrappers shared by the whole model: `Option` for values a
    JavaScript caller may find missing (`null`, `undefined`), `Result` for
    computations that may throw. */
module Wrappers {

  datatype Option<+T> = None | Some(value: T) {

    /** The wrapped value, or `default` when there is none. */
    function GetOr(default: T): T {
      match this
      case Some(v) => v
      case None => default
    }
  }

  datatype Result<+R, +E> = Success(value: R) | Failure(error: E) {

    predicate IsFailure() {
      Failure?
    }

    function PropagateFailure<U>(): Result<U, E>
      requires Failure?
    {
      Failure(error)
    }

    function Extract(): R
      requires Success?
    {
      value
    }
  }
}
